=== FILE: README.md ===
# Data-Server shared-state core in Dafny

A model of the shared-state layer of Data-Server, a multi-process record server. In the server, each accepted client gets a forked child. The children share two kinds of kernel state: a data file of `Record`s and a server log, and each file is guarded by a readers-writers lock built from System V semaphores. On the client machine, client processes share a process table in System V shared memory, guarded by the same kind of lock.

The model has five modules over a sixth, `Common`, which holds the Option type:

- `SemaphoreSet` (semaphore_set.dfy) models the semaphore bank and its slot layout.
  - The bank is a map from slot to value. Group k owns slots 3k, 3k+1 and 3k+2.
  - `genericWait` and `genericSignal` are modelled as functions. A wait that would block returns `None`, so blocking is a guard.
  - It models the four lock operations, `createSemaphores` over a kernel of sets keyed by key, and `destroySemaphores`.
- `ReadersWriters` (readers_writers.dfy) models any number of processes running the lock protocol.
  - Each process steps between the semaphore waits of the four lock operations.
  - The module proves a counting invariant, which gives mutual exclusion over every schedule.
- `CriticalFile` (critical_file.dfy) models the fixed-record store.
  - A file is a `seq<T>`, and `sizeof(T)` is a positive parameter.
  - It models count, read, append and update.
  - `seekRecord` takes no lock of its own, so it is folded into the read and the update.
  - Each operation's result carries the lock calls it made. A lemma replays them against the bank, so every return path can be checked for lock balance.
- `SharedMemory` (shared_memory.dfy) models the process table: a counter plus `MAX_CLIENTS` cells.
  - It covers create-or-attach, first-fit acquisition, command logging, the connected-clients listing, release, and the last-detacher teardown.
- `Server` (server.dfy) models the reply functions of a server child.
  - Each reply is a pure function from the request, the two files and the client address to the reply, the files afterwards, and the lock calls it made on each file's semaphore group.
  - A `Version` parameter selects the program as written or as corrected: the store's reads and appends that leave a lock taken on a failed seek or a negative index, and the update range check `recNum > count`, against their corrected forms.
  - It also models the action dispatch and the session loop. The session replays every request's lock calls on the server's semaphore set, so a request that would wait for good stops the session.

Kernel answers to I/O are parameters, so every error path can be taken:

- whether an lseek or a read/write succeeds (`Io`);
- which semget/semctl call fails (`SemFault`);
- which shmget call fails (`ShmFault`);
- the seek and read answers for each log entry (`logIo`).

Clock readings are the parameter `now`. Where the source stores uninitialised memory, the contents are a parameter (`stale`).

`createSemaphores` is modelled twice. The code probes with `semget(key, n, 0)`. When no set exists, it creates one with `IPC_CREAT` and without `IPC_EXCL`, then runs the SETVAL loop (src/SemaphoreSet.cpp:42-73). `CreateSemaphoresAsWritten` models this code, built from `ProbeSet` and `CreateAndInitialise`. `CreateSemaphores` is the exclusive variant: it creates with `IPC_CREAT|IPC_EXCL` and, if the set exists, attaches through the slot-0 barrier. `CreateSemaphoresAgree` shows the two return the same result when no other process acts between the probe and the create. The one excluded case is a failing probe on a missing key, because the exclusive variant makes no probe. Findings row 4 covers another process acting in the window between the probe and the create. A process attaching while the SETVAL loop is still running is a separate race, which neither variant closes. It is listed under "## Left out" and shown by `BarrierPassesPartialInit` and `PartialInitLosesReaderCount`.

## Model

| member | source | states |
|---|---|---|
| SemaphoreSet.SlotOwnership | src/SemaphoreSet.cpp:19-21 | slot s belongs to role r of group g exactly when s / 3 is g's index and s % 3 is r's position |
| SemaphoreSet.GroupsDisjoint | src/SemaphoreSet.cpp:19-21 | two different groups never share a slot |
| SemaphoreSet.SlotOrder | include/SemaphoreSet.h:14-15 | within a group the slots are ordered reader-count mutex, reader count, write semaphore, in three consecutive slots |
| SemaphoreSet.Wait | src/SemaphoreSet.cpp:170-179 | a wait gets through exactly when the slot is positive and then lowers only that slot by one; on a slot the set lacks, semop fails and nothing changes |
| SemaphoreSet.Signal | src/SemaphoreSet.cpp:186-193 | a signal raises only its slot by one and never blocks |
| SemaphoreSet.ReaderLock | src/SemaphoreSet.cpp:106-121 | enabled iff the mutex is free and, for a first reader, the write semaphore is free; the count rises by one, the write semaphore is taken exactly when the new count is 1, the mutex is restored, and no other group changes |
| SemaphoreSet.ReaderUnlock | src/SemaphoreSet.cpp:128-143 | enabled iff the mutex is free and the count is positive; the count drops by one and the write semaphore is released exactly when it reaches 0 |
| SemaphoreSet.WriterLock | src/SemaphoreSet.cpp:150-153 | enabled iff the write semaphore is positive; lowers it by one and changes no other slot |
| SemaphoreSet.WriterUnlock | src/SemaphoreSet.cpp:160-163 | raises the write semaphore by one and changes no other slot |
| SemaphoreSet.ReaderRoundTrip | src/SemaphoreSet.cpp:106-143 | readerLock followed by readerUnlock leaves the whole bank as it was |
| SemaphoreSet.WriterRoundTrip | src/SemaphoreSet.cpp:150-163 | writerLock followed by writerUnlock leaves the whole bank as it was |
| SemaphoreSet.ApplyAll | src/SemaphoreSet.cpp:106-163 | a trace of lock calls by one object changes only its own group's slots |
| SemaphoreSet.BracketRestores | src/SemaphoreSet.cpp:106-163 | a critical section that locks and then unlocks in the same mode restores the bank |
| SemaphoreSet.BracketBalanced | src/SemaphoreSet.cpp:106-163 | a lock followed by the unlock in the same mode is one complete critical section, and a lock alone is not |
| SemaphoreSet.BalancedConcat | src/SemaphoreSet.cpp:106-163 | after a run of complete critical sections, the whole trace is complete exactly when the rest is |
| SemaphoreSet.HeldConcat | src/SemaphoreSet.cpp:106-163 | the number of locks a trace leaves taken is the sum over its parts |
| SemaphoreSet.BalancedHeldNone | src/SemaphoreSet.cpp:106-163 | a run of complete critical sections leaves no lock taken |
| SemaphoreSet.BalancedRestores | src/SemaphoreSet.cpp:106-163 | any run of complete critical sections gets through an unlocked group and leaves the bank exactly as it was |
| SemaphoreSet.InitialBankUnlocked | src/SemaphoreSet.cpp:57-73 | after the SETVAL loop every one of the numSets groups reads (1,0,1), and all 3*numSets slots exist |
| SemaphoreSet.UnlockedAdmitsBoth | include/SemaphoreSet.h:119-120 | a group initialised to 1 0 1 admits both a reader and a writer, and a reader takes it to (1,1,0) |
| SemaphoreSet.Barrier | src/SemaphoreSet.cpp:76-84 | the attach path blocks exactly while slot 0 is 0, and otherwise returns the set with every value unchanged |
| SemaphoreSet.ProbeSet | src/SemaphoreSet.cpp:42-47 | semget(key, n, 0) finds the set exactly when the call works and the set exists with at least n slots, and reports it missing exactly when no set has the key; every other case is the error return |
| SemaphoreSet.CreateAndInitialise | src/SemaphoreSet.cpp:48-73 | a failing create, or n = 0, returns -1 and changes nothing. On a missing key it allocates and initialises the set. On an existing key with enough slots it hands that set back and rewrites every one of its values. A SETVAL failure returns -1. Other sets are untouched |
| SemaphoreSet.BarrierPassesPartialInit | src/SemaphoreSet.cpp:57-84 | after only the loop's first SETVAL (slot 0 to 1), the group reads (1,0,0) and the attach path's barrier already lets a process through |
| SemaphoreSet.ReinitialiseUnlocks | src/SemaphoreSet.cpp:57-73 | the SETVAL loop leaves every group it covers unlocked at (1,0,1), whatever the group held before |
| SemaphoreSet.CreateSemaphoresAsWritten | src/SemaphoreSet.cpp:37-88 | a failing probe returns -1. An existing set with enough slots goes through the barrier and is returned unchanged unless slot 0 is 0, in which case the call blocks. A missing key is created and initialised, and the result is -1 exactly when the create or a SETVAL fails. Other sets are untouched |
| SemaphoreSet.CreateSemaphores | src/SemaphoreSet.cpp:37-88 | an existing set is never written. If its lookup fails or it has too few slots, the call returns -1; otherwise it blocks exactly when slot 0 is 0 and else returns the set unchanged. A missing key gets 3*numSets slots, each group at (1,0,1). The result is -1 exactly when a creating call or a SETVAL fails. Other sets are untouched |
| SemaphoreSet.CreateSemaphoresAgree | src/SemaphoreSet.cpp:37-88 | with no other process acting in between, the probe-then-create code and the exclusive create return the same result. The one excluded case is a failing probe on a missing key, which the exclusive create never makes |
| SemaphoreSet.CreateTwiceSameSet | include/SemaphoreSet.h:119-120 | a second call on the same key returns the set the first created, values unchanged |
| SemaphoreSet.CreateRaceReinitialisesHeldLock | src/SemaphoreSet.cpp:42-72 | a set created and write-locked by B after A's probe is reset by A's non-exclusive create, so A also gets the writer lock |
| SemaphoreSet.ExclusiveCreateKeepsHeldLock | src/SemaphoreSet.cpp:76-84 | under exclusive creation the same interleaving attaches without writing, and A's writer lock stays blocked |
| SemaphoreSet.DestroySemaphores | include/SemaphoreSet.h:182-186 | IPC_RMID removes the whole set, every group in it, and leaves every other set alone |
| ReadersWriters.Step | src/SemaphoreSet.cpp:106-163 | a step runs exactly when its process is at the step's starting point and the semaphores it waits on are positive. It moves that process alone, to where the protocol goes next: a first reader goes on to take the write semaphore, and the last reader out goes on to give it back. It changes only the group's slots, taking one for each wait and giving one back for each signal |
| ReadersWriters.ReaderEntryStep | src/SemaphoreSet.cpp:106-121 | the three stretches of readerLock: take the mutex and count in, take the write semaphore as first reader, give the mutex back; each moves as a step must |
| ReadersWriters.ReaderExitStep | src/SemaphoreSet.cpp:128-143 | the three stretches of readerUnlock: take the mutex and count out, give the write semaphore back as last reader, give the mutex back; each moves as a step must |
| ReadersWriters.WriterStep | src/SemaphoreSet.cpp:150-163 | writerLock takes the write semaphore and writerUnlock gives it back; each moves as a step must |
| ReadersWriters.InitialSatisfiesInv | src/SemaphoreSet.cpp:57-73 | idle processes over a freshly initialised group satisfy the counting invariant |
| ReadersWriters.ReaderEntryPreservesInv | src/SemaphoreSet.cpp:106-121 | every enabled stretch of readerLock keeps the counting invariant |
| ReadersWriters.ReaderExitPreservesInv | src/SemaphoreSet.cpp:128-143 | every enabled stretch of readerUnlock keeps the counting invariant |
| ReadersWriters.WriterPreservesInv | src/SemaphoreSet.cpp:150-163 | writerLock and writerUnlock keep the counting invariant |
| ReadersWriters.StepPreservesInv | src/SemaphoreSet.cpp:106-163 | every enabled step keeps the invariant: the mutex plus its holders is 1, the count equals the counted readers, and the write semaphore plus the writers plus the readers' group hold is 1 |
| ReadersWriters.RunPreservesInv | src/SemaphoreSet.cpp:106-163 | any schedule of enabled steps keeps the invariant |
| ReadersWriters.Exclusion | src/SemaphoreSet.cpp:106-163 | under the invariant there is at most one writer and no writer beside an admitted reader, and the write semaphore and the mutex are each 0 or 1 |
| ReadersWriters.SetInitial | src/SemaphoreSet.cpp:60-72 | one SETVAL call sets its slot to its initial value and changes no other slot |
| ReadersWriters.PartialInitLosesReaderCount | src/SemaphoreSet.cpp:57-84 | a set whose loop has made only its first call reads (1,0,0), and a reader admitted then loses its count to the rest of the loop |
| ReadersWriters.EarlyReaderLosesCount | src/SemaphoreSet.cpp:106-121 | from (1,0,0), a first reader counts itself and waits for the write semaphore; once the loop sets the count to 0 and the write semaphore to 1, it gets in uncounted |
| ReadersWriters.LateEntryUncounted | src/SemaphoreSet.cpp:106-143 | a reader that gets in after its count was reset leaves the invariant broken: its readerUnlock can never take the count, and no writer can get in |
| ReadersWriters.MutualExclusion | src/SemaphoreSet.cpp:106-163 | from the initial state, under every schedule, at most one process writes, none reads while one writes, and the write slot stays in {0,1} |
| CriticalFile.OffsetInFile | src/CriticalFile.cpp:104 | record i's byte offset i*size is non-negative exactly for i >= 0, and lies inside an n-record file exactly for i < n with a whole record after it |
| CriticalFile.CountOfLength | src/CriticalFile.cpp:64 | a file of n whole records divides back to n |
| CriticalFile.CheckNumRecords | src/CriticalFile.cpp:54-70 | the count is the number of records, or -1 when the seek fails; the file is unchanged and the reader lock is taken and released on both paths |
| CriticalFile.ReadAt | src/CriticalFile.cpp:81-90 | a read succeeds exactly when seek and read succeed and 0 <= i < count, and then yields record i; past the end the read gets 0 bytes and fails |
| CriticalFile.ReadRecordAsWritten | src/CriticalFile.cpp:78-94 | the value is the read's, the file is unchanged, and the locks are balanced except on the seek-failure path, which leaves the reader lock taken |
| CriticalFile.ReadRecord | include/CriticalFile.h:79-83 | true exactly for an existing record with working I/O, yielding that record; never changes the file; read-synchronised on every path |
| CriticalFile.AppendAt | src/CriticalFile.cpp:122-131 | the append succeeds exactly when seek and write succeed; then the record sits at the old count and earlier records are unchanged, otherwise the file is unchanged |
| CriticalFile.WriteRecordAsWritten | src/CriticalFile.cpp:120-141 | the append as above, with the writer lock left taken on the seek-failure path |
| CriticalFile.WriteRecord | include/CriticalFile.h:91-95 | appends at the old count and keeps earlier records, false on error with the file unchanged, and write-synchronised on every path |
| CriticalFile.ReadRecordIn | src/CriticalFile.cpp:78-94 | either version reads record i exactly when seek and read work and the record exists, and never changes the file. The lock calls complete exactly when the version is corrected, or the seek works and i >= 0; otherwise one reader lock is left taken |
| CriticalFile.WriteRecordIn | src/CriticalFile.cpp:120-141 | either version appends exactly when seek and write work and otherwise leaves the file. The lock calls complete exactly when the version is corrected or the seek works; otherwise the writer lock is left taken |
| CriticalFile.Overwrite | src/CriticalFile.cpp:151-152 | writing record i replaces only record i inside the file; past the end it extends the file to i+1 records with zero records in the gap |
| CriticalFile.UpdateRecord | src/CriticalFile.cpp:149-163 | there is no bounds check: the update succeeds exactly when i >= 0 and seek and write succeed; the file changes only on success; the writer lock is released on every path |
| CriticalFile.AppendThenCount | src/CriticalFile.cpp:120-141 | a successful append raises the count by exactly one |
| CriticalFile.AppendThenRead | src/CriticalFile.cpp:120-141 | the appended record reads back at the old count, and every earlier record reads back unchanged |
| CriticalFile.UpdateThenRead | src/CriticalFile.cpp:149-163 | after updating existing record i, reading i gives the new record, every other record reads back unchanged, and the count is unchanged |
| CriticalFile.StoreCallsRestoreLock | include/CriticalFile.h:104-108 | each of count, read, append and update, on every path, leaves an available group's semaphores as they were |
| CriticalFile.ReadSeekFailureLeavesReaderLockHeld | src/CriticalFile.cpp:81-83 | reading record -1 leaves the group at (1,1,0), so a writer blocks, and later complete reads keep it that way |
| CriticalFile.WriteSeekFailureLeavesWriterLockHeld | src/CriticalFile.cpp:122-125 | a failed seek in append leaves the write semaphore at 0, so both readers and writers block |
| CriticalFile.EmptyFileScenario | include/CriticalFile.h:91-119 | on an empty file, an append then count gives 1 and reads back, and an update then reads back the new record with the count still 1 |
| SharedMemory.OccupiedUpdate | src/SharedMemory.cpp:111-123 | replacing one cell changes the occupied count by that cell's change alone |
| SharedMemory.FreshSegment | src/SharedMemory.cpp:62-67 | a newly created segment has counter 0 and every cell zeroed, and is well formed |
| SharedMemory.FirstVacant | include/SharedMemory.h:79 | returns the lowest unoccupied index at or after `from`, or -1 exactly when every such cell is occupied |
| SharedMemory.AcquireCell | src/SharedMemory.cpp:105-137 | takes the lowest unoccupied cell, sets it to (occupied, pid, 0, now, now), raises the counter by one and changes no other cell; with a full table it changes nothing; the writer lock is released on both paths |
| SharedMemory.Attach | src/SharedMemory.cpp:22-70 | creating gives a zeroed table under the writer lock, then cell 0 and counter 1. Attaching to an existing segment takes its lowest free cell, sets it to this process, raises the counter by one and changes no other cell. Any unexpected shmget error exits with code 1, and a full table exits with code 0, leaving the segment unchanged |
| SharedMemory.LogCommand | src/SharedMemory.cpp:196-206 | raises the command count of the process's cell by one and stamps lastCmdTime with now; nothing else changes; writer-locked |
| SharedMemory.ConnectedClients | src/SharedMemory.cpp:143-157 | lists exactly the occupied cells, in increasing index order, as many as the counter says on a well-formed table, under the reader lock |
| SharedMemory.ReleaseCell | src/SharedMemory.cpp:176-178 | zeroes the process's cell and no other |
| SharedMemory.Detach | src/SharedMemory.cpp:75-98 | zeroes the cell and lowers the counter. At 0 or below it removes the segment and the whole semaphore set without unlocking; otherwise it unlocks |
| SharedMemory.AcquirePreservesWf | src/SharedMemory.cpp:111-123 | a successful acquire keeps the counter equal to the number of occupied cells |
| SharedMemory.AttachPreservesWf | src/SharedMemory.cpp:22-70 | whether it creates the segment or attaches to a well-formed one, the constructor leaves the counter equal to the number of occupied cells, and the cell it reports is in the table and is this process's |
| SharedMemory.LogCommandPreservesWf | src/SharedMemory.cpp:196-206 | logging a command keeps the counter equal to the number of occupied cells |
| SharedMemory.DetachPreservesWf | src/SharedMemory.cpp:79-83 | a detach that keeps the segment keeps the counter equal to the number of occupied cells |
| SharedMemory.TeardownExactlyWhenLast | include/SharedMemory.h:127-128 | on a well-formed table, the detaching process removes the segment and semaphores exactly when no other cell is occupied |
| SharedMemory.FullTableReusesReleasedCell | src/SharedMemory.cpp:110-136 | a full table refuses a new process and is unchanged; after one detach, the next acquire gets exactly the freed index and the table is full again |
| SharedMemory.TwoClientLifecycle | src/SharedMemory.cpp:22-98 | two processes attach to cells 0 and 1 with counter 2; the first detach keeps the segment, and the second removes it and the semaphore set |
| Server.WriteLog | src/Server.cpp:266-282 | a working append adds exactly one entry with the client's address, the action and the arg; a failed one leaves the log unchanged. Its lock calls complete unless the version is as written and the seek fails, which leaves the log's writer lock taken |
| Server.CountReply | src/Server.cpp:145-150 | replies action 1 with the record count, or -1, and a zeroed record; logs (1, that arg); the data file is unchanged |
| Server.CreateReply | src/Server.cpp:157-178 | appends the client's record with its month replaced by the pre-append count. On success it replies that month and the record read back from that index; on failure it replies -1 with the file unchanged. Logs (4, reply arg). As written, its data-file lock calls complete exactly when the append's seek works and, if the append succeeds, the read-back's seek works as well |
| Server.ReadReply | src/Server.cpp:184-201 | replies with the requested index and its stored record when that record exists and I/O works, otherwise -1 and a zeroed record; logs (2, reply arg); the file is unchanged. As written, a failed seek or a negative index leaves the data file's reader lock taken |
| Server.UpdateAccepted | src/Server.cpp:225-235 | a successful update overwrites record recNum and replies recNum with the record read back; a failed one replies -1 and leaves the file; logs (3, reply arg) |
| Server.UpdateReplyAsWritten | src/Server.cpp:208-236 | recNum > count or recNum < 0 gets -1 with no log entry and nothing changed, after the count's lock bracket; everything else, recNum == count included, goes to the update |
| Server.UpdateReply | src/Server.cpp:208-236 | only an existing record can be updated: otherwise -1, no log, nothing changed. The count never changes. Success replaces only record recNum and replies recNum with the record sent |
| Server.StreamedSound | src/Server.cpp:249-256 | every "more coming" message carries a log entry that read successfully |
| Server.StreamedComplete | src/Server.cpp:249-256 | every entry that reads successfully is streamed |
| Server.StreamedWhole | src/Server.cpp:249-256 | with no failed read, the stream is the first count log entries, in order, each with arg 1 |
| Server.StreamedCount | src/Server.cpp:249-256 | the stream holds exactly as many messages as there are entries that read successfully |
| Server.FinalBuffer | src/Server.cpp:246-257 | the terminator carries the last entry read, a zeroed entry if that read failed, or the uninitialised buffer if the loop never ran |
| Server.EntryRead | src/CriticalFile.cpp:78-94 | reading log entry i yields it exactly when both its seek and its read work |
| Server.LogReply | src/Server.cpp:243-259 | the stream is one arg=1 message per entry whose seek and read both work, as many as there are readable entries, then exactly one arg=0 terminator carrying the last buffer read; a failed count sends the terminator alone |
| Server.TwoEntryLogReply | src/Server.cpp:243-259 | on a two-entry log with healthy I/O, the reply is the two entries in order and then a terminator that repeats the second |
| Server.StreamThenStop | src/Server.cpp:249-258 | the stream followed by one terminator has every message but the last at arg 1, each carrying a readable entry; every readable entry appears; the length is the number of readable entries plus one; with every entry readable it is the whole log in order |
| Server.StreamThenStopSound | src/Server.cpp:249-258 | before the terminator, every message has arg 1 and carries an entry that read successfully |
| Server.StreamThenStopComplete | src/Server.cpp:249-258 | every readable entry is sent before the terminator, one message per readable entry, and in log order when every entry reads |
| Server.StreamLocks | src/Server.cpp:249-256 | the log reads of the stream never release more reader locks than they take; they are a run of complete critical sections exactly when the version is corrected or every entry's seek works. As written, each failed seek leaves one reader lock taken |
| Server.LogSwitch | src/Server.cpp:243-259 | a log request changes neither file, takes no lock on the data file, and sends only log messages |
| Server.MessageSwitch | src/Server.cpp:91-129 | every action but 5 sends exactly one Record_Message with that action code. An unknown action echoes the request and changes nothing. Action 5 sends only log messages and changes nothing. Only updates and creates touch the data file, and the log only grows |
| Server.SwitchLocks | src/Server.cpp:91-129 | the corrected server completes every critical section it opens on both files. As written, a failed log seek leaves the log's writer lock taken after a count, read or create, and a read at a negative index or after a failed seek leaves the data file's reader lock taken. A log request's lock calls are complete exactly when the version is corrected, the count's seek fails, or every entry's seek works |
| Server.Synchronise | src/Server.cpp:145-235 | replaying a request's lock calls on the server's set, data file first and log second, keeps both groups in the set and the same slots in existence; None means a call would wait |
| Server.Serve | src/Server.cpp:53-81 | the run keeps the server's two groups in the set, and an empty run sends nothing and changes nothing |
| Server.ServeFirst | src/Server.cpp:53-81 | a first request whose lock calls get through is answered, and the rest are served from the files and semaphores it leaves |
| Server.ServeOnlyAppendsToLog | src/Server.cpp:53-81 | answering requests only appends to the log, and without updates or creates the data file is unchanged |
| Server.Session | src/Server.cpp:41-84 | the log only grows, and a session not left waiting for a lock adds a connect (5,0) first and a disconnect (6,0) last, after the old log |
| Server.CreateKeepsMonthsAreIndices | src/Server.cpp:163-168 | when every month equals its index, a create whose count works keeps that so |
| Server.CreateThenRead | src/Server.cpp:157-201 | the record a create reports reads back at the index it reports, with month equal to that index |
| Server.UpdateThenRead | src/Server.cpp:208-236 | after an update of an existing record, a read of it returns the record sent and the count is unchanged |
| Server.UpdateKeepsMonthsAreIndices | src/Server.cpp:208-236 | an update that keeps the record's month keeps every month equal to its index |
| Server.UpdateAtCountAppends | src/Server.cpp:218-223 | as written, an update at recNum == count succeeds and appends the client's record; the corrected check rejects it and changes nothing |
| Server.UpdateOfEmptyFileBreaksMonths | src/Server.cpp:218-223 | on an empty file, updating record 0 creates a record whose month is not its index; the corrected check replies -1 |
| Server.UpdateRepliesAgreeBelowCount | src/Server.cpp:218-223 | away from recNum == count, the as-written and corrected update replies agree |
| Server.EachRequestLogsOnce | src/Server.cpp:106-235 | with a working log, each count, read and create appends exactly one entry with its action and the reply's arg. An update does the same unless rejected, in which case it appends none. Both versions reject recNum < 0, recNum > count and a failed count; only the corrected one rejects recNum == count, which as written appends the client's record and logs it |
| Server.CorrectedStepRestores | src/Server.cpp:91-129 | each corrected request's lock calls get through two unlocked groups and leave the set as it was |
| Server.CorrectedServeFirst | src/Server.cpp:53-81 | on an unlocked set, the corrected server answers the first request and serves the rest from the files it leaves, with the set unchanged |
| Server.CorrectedServeNeverBlocks | src/Server.cpp:53-81 | the corrected server never waits for good: every run from an unlocked set completes and leaves the set as it was |
| Server.CorrectedSessionCompletes | src/Server.cpp:41-84 | a corrected session always completes, logs its connect first and its disconnect last, and leaves the semaphores as they were |
| Server.ReadLeavesReaderLock | src/Server.cpp:184-201 | as written, reading record -1 replies -1 with a zeroed record, leaves the data file alone, and leaves the data group at (1,1,0) with one reader counted |
| Server.ReadStaysAvailable | src/SemaphoreSet.cpp:106-143 | with one reader left counted, another reader still gets in and out and leaves the group as it was |
| Server.CreateWaitsForReader | src/Server.cpp:157-178 | as written, with a reader left counted, a create's count gets through but its append waits for good |
| Server.LogSeekSwitch | src/Server.cpp:243-259 | as written, a log request over a one-entry log whose seek fails sends one packet, makes the count's bracket, and then takes a reader lock it never releases |
| Server.LogSeekLeavesReaderLock | src/Server.cpp:243-259 | as written, that log request gets through an unlocked set and leaves the log's group at (1,1,0), with the data group untouched |
| Server.ReaderLeftInLog | src/CriticalFile.cpp:79-83 | lock calls that make one complete read and one unreleased reader lock on the log leave exactly one reader counted there and the data group unlocked |
| Server.ReaderLeft | src/SemaphoreSet.cpp:106-143 | from an unlocked group, a complete read and then one more reader lock leave the group at (1,1,0), with no other group changed |
| Server.OtherGroupKept | src/SemaphoreSet.cpp:19-21 | a change confined to one group leaves every other group's three values as they were |
| Server.CountWaitsForLogReader | src/Server.cpp:145-150 | in either version, with a reader left counted in the log's group, a count request's log entry waits for good |
| Server.LogSeekBlocksCount | src/Server.cpp:243-259 | as written, after a log request whose first seek fails, the next count request never gets its reply out |
| Server.ReadOfMinusOneBlocksCreate | src/Server.cpp:157-201 | as written, a read of record -1 followed by a create stops the server process: the read's reply is sent, the create never completes, the data file is unchanged, and the data group stays at (1,1,0) |
| Server.CorrectedCreateAppends | src/Server.cpp:157-178 | a corrected create with healthy I/O appends the client's record with its month set to the old count |
| Server.CorrectedServeTwo | src/Server.cpp:53-81 | two corrected requests on an unlocked set both complete, and the second sees the files the first left |
| Server.CorrectedReadThenCreate | src/Server.cpp:157-201 | the corrected server answers the same read of record -1 and the create, and the create appends the record numbered by the old count |
| Server.EmptySessionLog | src/Server.cpp:41-84 | a session with no requests logs connect and disconnect, and a later log request streams them followed by the terminator |
| Server.EmptySessionWritesTwo | src/Server.cpp:41-84 | a session with no requests completes and leaves exactly its connect and disconnect entries in an empty log |

## Left out

- Sockets are not modelled: src/SocketConnection.cpp is not part of this model. A reply is the list of packets the server writes, and a request is given whole; partial reads and the `r < 0` retry of `run` are not modelled.
- The client's menus and stdin handling (src/Client.cpp) are interactive I/O. So are fork/accept and the signal masks of `run`, src/mainser.cpp and src/maincli.cpp.
- Kernel calls (semget, semop, semctl, shmget, shmat, lseek, read, write) are replaced by abstract state plus fault parameters. A set's semid is identified with its key.
- Blocking is only enabledness. No liveness or fairness is claimed: a blocked wait is simply not enabled.
- The `SEMVMX` limit on a semaphore value is not modelled. Values are unbounded naturals.
- The float fields of `Record` are their raw 32-bit patterns, copied and never interpreted.
- Printing and time formatting are not modelled: `convertTime`, `printCell`, `printSemValues` and the `print()` methods. `ConnectedClients` returns the listed cells instead of printing them.
- `ConnectedClients`: does not return the printed counter value separately, because it only prints `numClients`, and on a well-formed table the contract already ties the list's length to it.
- The `int` result of `lseek` truncated to `int len` in `checkNumRecords` is not modelled, so files are assumed smaller than 2 GiB. The wrap of `numCommands` past `INT_MAX` is not modelled either.
- Short reads and writes: the store appends or reads whole records or nothing. The one exception is that a read past the end gets 0 bytes.
- The cross-process races are modelled sequentially, one call at a time:
  - an attach during the SETVAL loop of `createSemaphores`. The loop sets slot 0 first (src/SemaphoreSet.cpp:60), then the count (src/SemaphoreSet.cpp:65), the write semaphore (src/SemaphoreSet.cpp:69) and the second group. The attach path waits only on slot 0 (src/SemaphoreSet.cpp:81-82). Every client creates the same set (src/maincli.cpp:94), so a second client can get through while the set is only partly set up. Its `readerLock` counts it and waits on the write semaphore; the loop then sets the count back to 0. The client's `readerUnlock` later waits for good on the count while holding the mutex. `BarrierPassesPartialInit` and `PartialInitLosesReaderCount` show the steps, with the loop's remaining calls applied by hand. The exclusive `CreateSemaphores` keeps the same barrier, so it does not close this race;
  - between `checkNumRecords` and `writeRecord` in `createReply`, where two children can assign the same month;
  - the attach-during-teardown race at src/SharedMemory.cpp:93;
  - the shared file offset. The server opens the data file and the log once, before it forks (src/mainser.cpp:128, 135, 201), so every child moves the same offset. `readRecord` seeks and then reads in two calls under a reader lock (src/CriticalFile.cpp:79-85, 104), which other readers share, and `checkNumRecords` moves the same offset to the end (src/CriticalFile.cpp:58). Two children reading at once can therefore read another record, or 0 bytes. The model gives each call its own offset;
  - the creation of the process table. `shmget` with `IPC_CREAT|IPC_EXCL` succeeds (src/SharedMemory.cpp:31) before the creator takes the writer lock (src/SharedMemory.cpp:53). A process attaching through the existing-segment path (src/SharedMemory.cpp:39) can acquire a cell in between. The creator's `memset` (src/SharedMemory.cpp:64) then wipes that cell and the counter. Both processes end up owning cell 0 with the counter at 1, and the first to detach removes the segment and the semaphores (src/SharedMemory.cpp:85-91). `Attach` runs the creator's initialisation and acquisition as one step.

  Only the lock protocol itself is modelled over interleavings (`ReadersWriters`).
- The log request's terminator is sent from a buffer the loop may never have written. That content is the parameter `stale`, not a value.
- The CriticalFile destructor only closes the descriptor and leaves the semaphores alone. It has no effect on the modelled state, so no member models it.
- The atomic `ReaderLock`/`ReaderUnlock` functions and the fine-grained `ReadersWriters.Step` are not formally related by a refinement lemma. Both are written from the same source lines.
- Server.Serve: every store call in a served request has healthy I/O, and no other process acts on the server's semaphore set during the run. I/O faults are covered one request at a time by `MessageSwitch` and `SwitchLocks`. A request whose lock calls would wait for good takes no effect, including the calls it completed before that wait.
- SemaphoreSet.CreateAndInitialise: runs the create and the whole SETVAL loop as one step, so no other process acts between its calls. `CreateSemaphores` and `CreateSemaphoresAgree` inherit this. The loop's intermediate states appear only in `BarrierPassesPartialInit` and `PartialInitLosesReaderCount`.
- Server.LogReply: when some log reads fail, the contract says which entries are streamed and which are not, but not their order. The order is stated only when no read fails.

## Findings

| source | as written | input that shows it | evidently intended | confidence | as-written member | corrected member |
|---|---|---|---|---|---|---|
| src/CriticalFile.cpp:81-83 | `readRecord` returns false after a failed seek without calling `readerUnlock` | a read request for record -1 (readReply passes the client's arg unchecked) leaves the group at (1,1,0), after which every writer blocks; a log request whose seek to an entry fails does the same to the log's group, after which a count request blocks on its log entry | release the reader lock on every return path, as the other paths do | not executed; high | CriticalFile.ReadRecordAsWritten, CriticalFile.ReadSeekFailureLeavesReaderLockHeld, Server.ReadOfMinusOneBlocksCreate, Server.LogSeekBlocksCount | CriticalFile.ReadRecord, CriticalFile.StoreCallsRestoreLock, Server.CorrectedReadThenCreate, Server.StreamLocks |
| src/CriticalFile.cpp:122-125 | `writeRecord` returns false after a failed seek to the end without calling `writerUnlock` | a failing lseek (Io(false, true)) leaves the write semaphore at 0, blocking all readers and writers | release the writer lock on every return path | not executed; medium (needs a failing lseek) | CriticalFile.WriteRecordAsWritten, CriticalFile.WriteSeekFailureLeavesWriterLockHeld, Server.SwitchLocks | CriticalFile.WriteRecord, CriticalFile.StoreCallsRestoreLock, Server.CorrectedServeNeverBlocks |
| src/Server.cpp:219 | the range check rejects `recNum > count`, so `recNum == count` is accepted | count 0, update of record 0: the file grows to one record, the reply says record 0 was updated, and its month is whatever the client sent | reject `recNum >= count`, as the client does (src/Client.cpp:340-345) | not executed; high | Server.UpdateReplyAsWritten, Server.UpdateAtCountAppends, Server.UpdateOfEmptyFileBreaksMonths, Server.EachRequestLogsOnce | Server.UpdateReply, Server.UpdateThenRead |
| src/SemaphoreSet.cpp:42-52 | the existence probe and the create are two calls, and the create uses `IPC_CREAT` without `IPC_EXCL` | A probes and finds nothing; B creates the set and takes the writer lock; A's create returns B's set and its SETVAL loop resets the write semaphore to 1, so A also enters as a writer | create exclusively and fall back to attaching through the slot-0 barrier; that barrier alone still does not wait for the rest of the SETVAL loop (see "## Left out") | not executed; medium (needs that interleaving) | SemaphoreSet.CreateSemaphoresAsWritten, SemaphoreSet.CreateRaceReinitialisesHeldLock | SemaphoreSet.CreateSemaphores, SemaphoreSet.ExclusiveCreateKeepsHeldLock |

=== FILE: common.dfy ===
/**
 Small shared vocabulary for the model: an optional value, used wherever the
 source either produces something or fails (a blocked semaphore wait, a failed
 record read).
 */
module Common {

  /** The conventional Some/None datatype. */
  datatype Option<T> = None | Some(value: T) {

    /** Returns the value in Some, or `default` if None. */
    function GetOr(default: T): T {
      match this
      case Some(v) => v
      case None => default
    }
  }
}

=== FILE: critical_file.dfy ===
/**
 The fixed-record file store (template class CriticalFile<T>).

 The file is a sequence of records of one fixed byte size; record i occupies
 the bytes from i * size. Every operation runs inside one critical section of
 the store's SemaphoreSet group, and its result carries the lock calls it
 made, so that each return path can be checked for releasing what it took.
 Whether lseek and read/write succeed is decided by the kernel; the model
 takes those answers as a parameter.
 */
module CriticalFile {
  import opened Common
  import opened SemaphoreSet

  /** sizeof(T): the byte size of one record. */
  type RecordSize = n: nat | n > 0 witness 1

  /** The kernel's answers to one store call: whether its lseek, and its read or write, succeed. */
  datatype Io = Io(seekOk: bool, transferOk: bool)

  const Healthy := Io(true, true)

  /** What a store call returns, the file afterwards, and the lock calls it made. */
  datatype Outcome<R, T> = Outcome(value: R, file: seq<T>, locks: seq<LockOp>)

  // ---------------------------------------------------------------------------
  // Byte layout
  // ---------------------------------------------------------------------------

  /** Length in bytes of a file holding the records f. */
  function FileLength<T>(f: seq<T>, size: RecordSize): nat {
    |f| * size
  }

  /** Byte offset of record i. */
  function ByteOffset(i: int, size: RecordSize): int {
    i * size
  }

  /** lseek(fd, off, SEEK_SET): refused for a negative offset, and whenever the kernel fails it. */
  predicate SeekSucceeds(off: int, io: Io) {
    io.seekOk && off >= 0
  }

  /** What read(fd, buf, size) returns at byte position off of a file of len bytes. */
  function ReadResult(len: nat, off: nat, size: nat, io: Io): int {
    if !io.transferOk then -1
    else if off >= len then 0
    else if len - off < size then len - off
    else size
  }

  /** Records further along start at least one record size further on. */
  lemma {:induction false} MulStrictlyMonotone(a: int, b: int, size: RecordSize)
    requires a < b
    ensures a * size + size <= b * size
    decreases b - a
  {
    assert (a + 1) * size == a * size + size;
    if a + 1 < b {
      MulStrictlyMonotone(a + 1, b, size);
    }
  }

  /** Record offsets: non-negative exactly for non-negative indices, and inside the file exactly for existing records. */
  lemma OffsetInFile(i: int, n: nat, size: RecordSize)
    ensures ByteOffset(i, size) >= 0 <==> i >= 0
    ensures i >= 0 ==> (ByteOffset(i, size) < n * size <==> i < n)
    ensures 0 <= i < n ==> n * size - ByteOffset(i, size) >= size
  {
    if i >= 0 {
      MulStrictlyMonotone(-1, i, size);
    } else {
      MulStrictlyMonotone(i, 0, size);
    }
    if i < n {
      MulStrictlyMonotone(i, n, size);
    } else if n < i {
      MulStrictlyMonotone(n, i, size);
    }
  }

  /** A file of n whole records counts as n records. */
  lemma CountOfLength(n: nat, size: RecordSize)
    ensures (n * size) / size == n
  {
    var q, r := (n * size) / size, (n * size) % size;
    assert n * size == q * size + r;
    if q < n {
      MulStrictlyMonotone(q, n, size);
    } else if n < q {
      MulStrictlyMonotone(n, q, size);
    }
  }

  // ---------------------------------------------------------------------------
  // checkNumRecords
  // ---------------------------------------------------------------------------

  /** checkNumRecords: reader-locked; the file length divided by the record size, or -1 when the seek fails. */
  function CheckNumRecords<T>(f: seq<T>, size: RecordSize, io: Io): (r: Outcome<int, T>)
    ensures r.value == if io.seekOk then |f| else -1
    ensures r.file == f
    ensures r.locks == Bracket(Shared)
  {
    var len := if io.seekOk then FileLength(f, size) as int else -1;
    CountOfLength(|f|, size);
    Outcome(if len < 0 then -1 else len / size, f, Bracket(Shared))
  }

  // ---------------------------------------------------------------------------
  // readRecord
  // ---------------------------------------------------------------------------

  /**
   The seek and read of readRecord: seek to the record's offset, then read
   size bytes; a result of 0 or less is a failure. Reading at or beyond the
   record count gets 0 bytes and fails.
   */
  function ReadAt<T>(f: seq<T>, i: int, size: RecordSize, io: Io): (r: Option<T>)
    ensures r.Some? <==> io.seekOk && io.transferOk && 0 <= i < |f|
    ensures r.Some? ==> r.value == f[i]
  {
    OffsetInFile(i, |f|, size);
    if !SeekSucceeds(ByteOffset(i, size), io) then None
    else
      var res := ReadResult(FileLength(f, size), ByteOffset(i, size), size, io);
      if res <= 0 then None else Some(f[i])
  }

  /**
   readRecord as written: when the seek fails it returns false without
   calling readerUnlock.
   */
  function ReadRecordAsWritten<T>(f: seq<T>, i: int, size: RecordSize, io: Io): (r: Outcome<Option<T>, T>)
    ensures r.value == ReadAt(f, i, size, io) && r.file == f
    ensures r.locks == if io.seekOk && i >= 0 then Bracket(Shared) else [Lock(Shared)]
  {
    OffsetInFile(i, |f|, size);
    if !SeekSucceeds(ByteOffset(i, size), io) then Outcome(None, f, [Lock(Shared)])
    else Outcome(ReadAt(f, i, size, io), f, Bracket(Shared))
  }

  /** readRecord with the reader lock released on the seek-failure path too. */
  function ReadRecord<T>(f: seq<T>, i: int, size: RecordSize, io: Io): (r: Outcome<Option<T>, T>)
    ensures r.value.Some? <==> io.seekOk && io.transferOk && 0 <= i < |f|
    ensures r.value.Some? ==> r.value.value == f[i]
    ensures r.file == f
    ensures r.locks == Bracket(Shared)
  {
    Outcome(ReadAt(f, i, size, io), f, Bracket(Shared))
  }

  // ---------------------------------------------------------------------------
  // writeRecord (append)
  // ---------------------------------------------------------------------------

  /** The seek to the end and the write of writeRecord: the file afterwards, and whether both succeeded. */
  function AppendAt<T>(f: seq<T>, rec: T, io: Io): (r: (bool, seq<T>))
    ensures r.0 <==> io.seekOk && io.transferOk
    ensures r.0 ==> |r.1| == |f| + 1 && r.1[..|f|] == f && r.1[|f|] == rec
    ensures !r.0 ==> r.1 == f
  {
    if !io.seekOk || !io.transferOk then (false, f) else (true, f + [rec])
  }

  /**
   writeRecord as written: when the seek to the end fails it returns false
   without calling writerUnlock.
   */
  function WriteRecordAsWritten<T>(f: seq<T>, rec: T, io: Io): (r: Outcome<bool, T>)
    ensures (r.value, r.file) == AppendAt(f, rec, io)
    ensures r.locks == if io.seekOk then Bracket(Exclusive) else [Lock(Exclusive)]
  {
    if !io.seekOk then Outcome(false, f, [Lock(Exclusive)])
    else
      var (ok, f') := AppendAt(f, rec, io);
      Outcome(ok, f', Bracket(Exclusive))
  }

  /** writeRecord with the writer lock released on the seek-failure path too. */
  function WriteRecord<T>(f: seq<T>, rec: T, io: Io): (r: Outcome<bool, T>)
    ensures r.value <==> io.seekOk && io.transferOk
    ensures r.value ==> |r.file| == |f| + 1 && r.file[..|f|] == f && r.file[|f|] == rec
    ensures !r.value ==> r.file == f
    ensures r.locks == Bracket(Exclusive)
  {
    var (ok, f') := AppendAt(f, rec, io);
    Outcome(ok, f', Bracket(Exclusive))
  }

  // ---------------------------------------------------------------------------
  // The program as written and as corrected
  // ---------------------------------------------------------------------------

  /**
   Which program runs: the code as written, or the code with the corrections
   this model proposes (readRecord and writeRecord release their lock on the
   seek-failure path, and updateReply rejects a record number equal to the
   count).
   */
  datatype Version = AsWritten | Corrected

  /**
   readRecord of either version: the same answer and the same file, and the
   lock calls complete exactly when the seek gets through or the version is
   corrected. Otherwise one reader lock is left taken.
   */
  function ReadRecordIn<T>(v: Version, f: seq<T>, i: int, size: RecordSize, io: Io): (r: Outcome<Option<T>, T>)
    ensures r.value.Some? <==> io.seekOk && io.transferOk && 0 <= i < |f|
    ensures r.value.Some? ==> r.value.value == f[i]
    ensures r.file == f
    ensures Balanced(r.locks) <==> v == Corrected || (io.seekOk && i >= 0)
    ensures !Balanced(r.locks) ==> r.locks == [Lock(Shared)]
  {
    BracketBalanced(Shared);
    var r := if v == AsWritten then ReadRecordAsWritten(f, i, size, io) else ReadRecord(f, i, size, io);
    assert r.locks == if v == Corrected || (io.seekOk && i >= 0) then Bracket(Shared) else [Lock(Shared)];
    r
  }

  /**
   writeRecord of either version: the same append, and the lock calls
   complete exactly when the seek gets through or the version is corrected.
   Otherwise the writer lock is left taken.
   */
  function WriteRecordIn<T>(v: Version, f: seq<T>, rec: T, io: Io): (r: Outcome<bool, T>)
    ensures r.value <==> io.seekOk && io.transferOk
    ensures r.value ==> r.file == f + [rec]
    ensures !r.value ==> r.file == f
    ensures Balanced(r.locks) <==> v == Corrected || io.seekOk
    ensures !Balanced(r.locks) ==> r.locks == [Lock(Exclusive)]
  {
    BracketBalanced(Exclusive);
    var r := if v == AsWritten then WriteRecordAsWritten(f, rec, io) else WriteRecord(f, rec, io);
    assert r.value ==> r.file == r.file[..|f|] + [r.file[|f|]];
    assert r.locks == if v == Corrected || io.seekOk then Bracket(Exclusive) else [Lock(Exclusive)];
    r
  }

  // ---------------------------------------------------------------------------
  // updateRecord
  // ---------------------------------------------------------------------------

  /**
   Writing record i: inside the file it replaces record i; past the end the
   write extends the file, and the gap reads back as all-zero records.
   */
  function Overwrite<T>(f: seq<T>, i: nat, rec: T, zero: T): (g: seq<T>)
    ensures |g| == if i < |f| then |f| else i + 1
    ensures g[i] == rec
    ensures forall j :: 0 <= j < |f| && j != i ==> g[j] == f[j]
    ensures forall j :: |f| <= j < i ==> g[j] == zero
  {
    if i < |f| then f[i := rec] else f + seq(i - |f|, _ => zero) + [rec]
  }

  /**
   updateRecord: writer-locked; seeks to record i and writes over it. There
   is no bounds check: it fails only when the seek or the write fails.
   */
  function UpdateRecord<T>(f: seq<T>, i: int, rec: T, zero: T, size: RecordSize, io: Io): (r: Outcome<bool, T>)
    ensures r.value <==> io.seekOk && io.transferOk && i >= 0
    ensures r.value ==> r.file == Overwrite(f, i, rec, zero)
    ensures !r.value ==> r.file == f
    ensures r.locks == Bracket(Exclusive)
  {
    OffsetInFile(i, |f|, size);
    if !SeekSucceeds(ByteOffset(i, size), io) || !io.transferOk then Outcome(false, f, Bracket(Exclusive))
    else Outcome(true, Overwrite(f, i, rec, zero), Bracket(Exclusive))
  }

  // ---------------------------------------------------------------------------
  // Properties
  // ---------------------------------------------------------------------------

  /** A successful append raises the count by exactly one. */
  lemma AppendThenCount<T>(f: seq<T>, rec: T, size: RecordSize, io: Io, countIo: Io)
    requires io.seekOk && io.transferOk && countIo.seekOk
    ensures CheckNumRecords(WriteRecord(f, rec, io).file, size, countIo).value
            == CheckNumRecords(f, size, countIo).value + 1
  {
  }

  /** The appended record is found at the index the count had before the append. */
  lemma AppendThenRead<T>(f: seq<T>, rec: T, size: RecordSize, io: Io)
    requires io.seekOk && io.transferOk
    ensures ReadRecord(WriteRecord(f, rec, io).file, |f|, size, Healthy).value == Some(rec)
    ensures forall j :: 0 <= j < |f| ==> ReadRecord(WriteRecord(f, rec, io).file, j, size, Healthy).value == Some(f[j])
  {
  }

  /** After a successful update of an existing record, reading it returns what was written and the count is unchanged. */
  lemma UpdateThenRead<T>(f: seq<T>, i: int, rec: T, zero: T, size: RecordSize, io: Io)
    requires io.seekOk && io.transferOk && 0 <= i < |f|
    ensures var f' := UpdateRecord(f, i, rec, zero, size, io).file;
      && ReadRecord(f', i, size, Healthy).value == Some(rec)
      && |f'| == |f|
      && forall j :: 0 <= j < |f| && j != i ==> ReadRecord(f', j, size, Healthy).value == Some(f[j])
  {
  }

  /**
   Every path of the corrected operations releases the lock it took: from a
   group whose lock is available, the calls leave the semaphores as they were.
   */
  lemma StoreCallsRestoreLock<T>(b: Bank, g: Group, f: seq<T>, i: int, rec: T, zero: T, size: RecordSize, io: Io)
    requires HasGroup(b, g)
    requires ReaderLock(b, g).Some? && WriterLock(b, g).Some?
    ensures ApplyAll(b, g, CheckNumRecords(f, size, io).locks) == Some(b)
    ensures ApplyAll(b, g, ReadRecord(f, i, size, io).locks) == Some(b)
    ensures ApplyAll(b, g, WriteRecord(f, rec, io).locks) == Some(b)
    ensures ApplyAll(b, g, UpdateRecord(f, i, rec, zero, size, io).locks) == Some(b)
  {
    BracketRestores(b, g, Shared);
    BracketRestores(b, g, Exclusive);
  }

  /**
   As written, reading record -1 (an index a client can send) fails the seek
   and returns with the reader lock held: the group is left with one phantom
   reader, every writer blocks, and a later reader's complete critical
   section leaves it in the same state.
   */
  lemma ReadSeekFailureLeavesReaderLockHeld<T>(b: Bank, g: Group, f: seq<T>, size: RecordSize)
    requires HasGroup(b, g) && View(b, g) == Unlocked
    ensures var r := ReadRecordAsWritten(f, -1, size, Healthy);
      && r.value.None?
      && r.locks == [Lock(Shared)]
      && ApplyAll(b, g, r.locks).Some?
      && var held := ApplyAll(b, g, r.locks).value;
      && View(held, g) == Triple(1, 1, 0)
      && WriterLock(held, g).None?
      && ApplyAll(held, g, Bracket(Shared)) == Some(held)
  {
    var r := ReadRecordAsWritten(f, -1, size, Healthy);
    assert r.locks[1..] == [];
    var held := ApplyAll(b, g, r.locks).value;
    BracketRestores(held, g, Shared);
  }

  /**
   As written, an append whose seek fails returns with the writer lock held:
   every later reader and writer of the group blocks.
   */
  lemma WriteSeekFailureLeavesWriterLockHeld<T>(b: Bank, g: Group, f: seq<T>, rec: T)
    requires HasGroup(b, g) && View(b, g) == Unlocked
    ensures var r := WriteRecordAsWritten(f, rec, Io(false, true));
      && !r.value
      && r.locks == [Lock(Exclusive)]
      && ApplyAll(b, g, r.locks).Some?
      && var held := ApplyAll(b, g, r.locks).value;
      && View(held, g) == Triple(1, 0, 0)
      && WriterLock(held, g).None?
      && ReaderLock(held, g).None?
  {
    var r := WriteRecordAsWritten(f, rec, Io(false, true));
    assert r.locks[1..] == [];
  }

  /**
   The store over an initially empty file: append, count, read back, update,
   read back again.
   */
  lemma EmptyFileScenario<T>(first: T, second: T, zero: T, size: RecordSize)
    ensures var a := WriteRecord([], first, Healthy);
      && a.value
      && CheckNumRecords(a.file, size, Healthy).value == 1
      && ReadRecord(a.file, 0, size, Healthy).value == Some(first)
      && var u := UpdateRecord(a.file, 0, second, zero, size, Healthy);
      && u.value
      && ReadRecord(u.file, 0, size, Healthy).value == Some(second)
      && CheckNumRecords(u.file, size, Healthy).value == 1
  {
  }
}

=== FILE: readers_writers.dfy ===
/**
 Many processes sharing one readers-writers group (SemaphoreSet.cpp,
 readerLock / readerUnlock / writerLock / writerUnlock).

 Each process has a program counter; a step runs one stretch of a lock
 operation between two semaphore waits, and is enabled only when its wait
 can get through. The three calls at the start of readerLock
 (P(mutex), V(count), reading the count) form one step, and likewise
 P(mutex), P(count), reading the count in readerUnlock: the count is only
 touched by the holder of the mutex, so no other process can observe the
 difference. A first reader that finds the write semaphore taken therefore
 waits while holding the mutex, as it does in the source.
 */
module ReadersWriters {
  import opened Common
  import opened SemaphoreSet

  /** Where a process is in the lock protocol. */
  datatype Pc =
    | Idle
    | AwaitingWrite      // first reader: counted, holds the mutex, waits for the write semaphore
    | ReleasingEntry     // counted, holds the mutex, about to release it
    | Reading            // inside the read critical section
    | SignallingWrite    // last reader out: holds the mutex, about to release the write semaphore
    | ReleasingExit      // holds the mutex, about to release it
    | Writing            // inside the write critical section

  datatype Action =
    | ReaderEnter | ReaderTakeWrite | ReaderEntered
    | ReaderExit | ReaderGiveWrite | ReaderLeft
    | WriterEnter | WriterLeave

  datatype Move = Move(pid: nat, action: Action)

  /** The group's semaphores and every process's program counter. */
  datatype Sys = Sys(bank: Bank, group: Group, procs: seq<Pc>)

  function Count(ps: seq<Pc>, pc: Pc): nat {
    if ps == [] then 0 else Count(ps[..|ps| - 1], pc) + (if ps[|ps| - 1] == pc then 1 else 0)
  }

  /** Moving one process from ps[i] to x changes the counts of those two locations by one. */
  lemma {:induction false} CountUpdate(ps: seq<Pc>, i: nat, x: Pc, pc: Pc)
    requires i < |ps|
    ensures Count(ps[i := x], pc) + (if ps[i] == pc then 1 else 0) == Count(ps, pc) + (if x == pc then 1 else 0)
    decreases |ps|
  {
    var qs := ps[i := x];
    var n := |ps| - 1;
    assert qs[..n] == if i == n then ps[..n] else ps[..n][i := x];
    if i < n {
      CountUpdate(ps[..n], i, x, pc);
    }
  }

  lemma CountsAfterMove(ps: seq<Pc>, i: nat, x: Pc)
    requires i < |ps|
    ensures forall pc :: Count(ps[i := x], pc) + (if ps[i] == pc then 1 else 0) == Count(ps, pc) + (if x == pc then 1 else 0)
  {
    forall pc
      ensures Count(ps[i := x], pc) + (if ps[i] == pc then 1 else 0) == Count(ps, pc) + (if x == pc then 1 else 0)
    {
      CountUpdate(ps, i, x, pc);
    }
  }

  /** A process at location pc is counted there. */
  lemma {:induction false} CountPositive(ps: seq<Pc>, i: nat)
    requires i < |ps|
    ensures Count(ps, ps[i]) > 0
    decreases |ps|
  {
    var n := |ps| - 1;
    if i < n {
      assert ps[..n][i] == ps[i];
      CountPositive(ps[..n], i);
    }
  }

  /** The location each action starts from. */
  function From(a: Action): Pc {
    match a
    case ReaderEnter | WriterEnter => Idle
    case ReaderTakeWrite => AwaitingWrite
    case ReaderEntered => ReleasingEntry
    case ReaderExit => Reading
    case ReaderGiveWrite => SignallingWrite
    case ReaderLeft => ReleasingExit
    case WriterLeave => Writing
  }

  /**
   Action a of process p can run: p is where a starts, and every semaphore a
   waits on is positive (the mutex for the two count updates, the write
   semaphore for a first reader and a writer, the count for a leaving reader).
   */
  predicate Enabled(s: Sys, p: nat, a: Action)
    requires HasGroup(s.bank, s.group)
  {
    var v := View(s.bank, s.group);
    && p < |s.procs| && s.procs[p] == From(a)
    && match a
       case ReaderEnter => v.mutex > 0
       case ReaderTakeWrite | WriterEnter => v.write > 0
       case ReaderExit => v.mutex > 0 && v.readers > 0
       case _ => true
  }

  /**
   Where action a leaves its process, given the group's values before it: a
   reader that finds no other reader counted goes on to wait for the write
   semaphore, and the last reader out goes on to release it.
   */
  function NextPc(a: Action, v: Triple): Pc {
    match a
    case ReaderEnter => if v.readers == 0 then AwaitingWrite else ReleasingEntry
    case ReaderTakeWrite => ReleasingEntry
    case ReaderEntered => Reading
    case ReaderExit => if v.readers == 1 then SignallingWrite else ReleasingExit
    case ReaderGiveWrite => ReleasingExit
    case ReaderLeft | WriterLeave => Idle
    case WriterEnter => Writing
  }

  /** What action a does to the group's three values: each wait takes one, each signal gives one back. */
  function Effect(a: Action, v: Triple): Triple
    requires v.mutex > 0 || (a != ReaderEnter && a != ReaderExit)
    requires v.write > 0 || (a != ReaderTakeWrite && a != WriterEnter)
    requires v.readers > 0 || a != ReaderExit
  {
    match a
    case ReaderEnter => Triple(v.mutex - 1, v.readers + 1, v.write)
    case ReaderTakeWrite | WriterEnter => v.(write := v.write - 1)
    case ReaderEntered | ReaderLeft => v.(mutex := v.mutex + 1)
    case ReaderExit => Triple(v.mutex - 1, v.readers - 1, v.write)
    case ReaderGiveWrite | WriterLeave => v.(write := v.write + 1)
  }

  /**
   What a step of action a by process p may do: it runs exactly when it is
   enabled, moves p alone to where the protocol says, changes only its
   group, and changes the group's values as its waits and signals say.
   */
  predicate Moves(s: Sys, p: nat, a: Action, r: Option<Sys>)
    requires HasGroup(s.bank, s.group)
  {
    && (r.Some? <==> Enabled(s, p, a))
    && (r.Some? ==>
          && p < |s.procs| && r.value.group == s.group && |r.value.procs| == |s.procs|
          && HasGroup(r.value.bank, s.group) && OnlyGroupChanged(s.bank, r.value.bank, s.group)
          && r.value.procs[p] == NextPc(a, View(s.bank, s.group))
          && (forall j :: 0 <= j < |s.procs| && j != p ==> r.value.procs[j] == s.procs[j])
          && View(r.value.bank, s.group) == Effect(a, View(s.bank, s.group)))
  }

  /** The three stretches of readerLock. */
  function ReaderEntryStep(s: Sys, p: nat, a: Action): (r: Option<Sys>)
    requires HasGroup(s.bank, s.group) && p < |s.procs| && s.procs[p] == From(a)
    requires a == ReaderEnter || a == ReaderTakeWrite || a == ReaderEntered
    ensures Moves(s, p, a, r)
  {
    var b, g := s.bank, s.group;
    var mutex, count, write := Slot(g, ReadCountMutex), Slot(g, ReadCount), Slot(g, WriteSem);
    match a
    case ReaderEnter =>
      (match Wait(b, mutex)
       case None => None
       case Some(b1) =>
         var b2 := Signal(b1, count);
         SlotChangeInGroup(b, b1, g, ReadCountMutex);
         SlotChangeInGroup(b1, b2, g, ReadCount);
         Some(Sys(b2, g, s.procs[p := if b2[count] == 1 then AwaitingWrite else ReleasingEntry])))
    case ReaderTakeWrite =>
      (match Wait(b, write)
       case None => None
       case Some(b1) =>
         SlotChangeInGroup(b, b1, g, WriteSem);
         Some(Sys(b1, g, s.procs[p := ReleasingEntry])))
    case ReaderEntered =>
      SlotChangeInGroup(b, Signal(b, mutex), g, ReadCountMutex);
      Some(Sys(Signal(b, mutex), g, s.procs[p := Reading]))
  }

  /** The three stretches of readerUnlock. */
  function ReaderExitStep(s: Sys, p: nat, a: Action): (r: Option<Sys>)
    requires HasGroup(s.bank, s.group) && p < |s.procs| && s.procs[p] == From(a)
    requires a == ReaderExit || a == ReaderGiveWrite || a == ReaderLeft
    ensures Moves(s, p, a, r)
  {
    var b, g := s.bank, s.group;
    var mutex, count, write := Slot(g, ReadCountMutex), Slot(g, ReadCount), Slot(g, WriteSem);
    match a
    case ReaderExit =>
      (match Wait(b, mutex)
       case None => None
       case Some(b1) =>
         (match Wait(b1, count)
          case None => None
          case Some(b2) =>
            SlotChangeInGroup(b, b1, g, ReadCountMutex);
            SlotChangeInGroup(b1, b2, g, ReadCount);
            Some(Sys(b2, g, s.procs[p := if b2[count] == 0 then SignallingWrite else ReleasingExit]))))
    case ReaderGiveWrite =>
      SlotChangeInGroup(b, Signal(b, write), g, WriteSem);
      Some(Sys(Signal(b, write), g, s.procs[p := ReleasingExit]))
    case ReaderLeft =>
      SlotChangeInGroup(b, Signal(b, mutex), g, ReadCountMutex);
      Some(Sys(Signal(b, mutex), g, s.procs[p := Idle]))
  }

  /** writerLock and writerUnlock, one stretch each. */
  function WriterStep(s: Sys, p: nat, a: Action): (r: Option<Sys>)
    requires HasGroup(s.bank, s.group) && p < |s.procs| && s.procs[p] == From(a)
    requires a == WriterEnter || a == WriterLeave
    ensures Moves(s, p, a, r)
  {
    var b, g := s.bank, s.group;
    var write := Slot(g, WriteSem);
    match a
    case WriterEnter =>
      (match Wait(b, write)
       case None => None
       case Some(b1) =>
         SlotChangeInGroup(b, b1, g, WriteSem);
         Some(Sys(b1, g, s.procs[p := Writing])))
    case WriterLeave =>
      SlotChangeInGroup(b, Signal(b, write), g, WriteSem);
      Some(Sys(Signal(b, write), g, s.procs[p := Idle]))
  }

  /** One step of process p; None when p is not at the right location or its wait would block. */
  function Step(s: Sys, p: nat, a: Action): (r: Option<Sys>)
    requires HasGroup(s.bank, s.group)
    ensures Moves(s, p, a, r)
  {
    if p >= |s.procs| || s.procs[p] != From(a) then None
    else
      match a
      case ReaderEnter | ReaderTakeWrite | ReaderEntered => ReaderEntryStep(s, p, a)
      case ReaderExit | ReaderGiveWrite | ReaderLeft => ReaderExitStep(s, p, a)
      case WriterEnter | WriterLeave => WriterStep(s, p, a)
  }

  /** Processes holding the reader-count mutex. */
  function Holders(ps: seq<Pc>): nat {
    Count(ps, AwaitingWrite) + Count(ps, ReleasingEntry) + Count(ps, SignallingWrite) + Count(ps, ReleasingExit)
  }

  /** Processes the reader count counts. */
  function Counted(ps: seq<Pc>): nat {
    Count(ps, AwaitingWrite) + Count(ps, ReleasingEntry) + Count(ps, Reading)
  }

  /** Whether the readers as a group hold the write semaphore. */
  predicate ReadersHoldWrite(v: Triple, ps: seq<Pc>) {
    v.readers > Count(ps, AwaitingWrite) || Count(ps, SignallingWrite) > 0
  }

  /**
   The protocol invariant: the mutex is free exactly when nobody holds it,
   the count is the number of counted readers, and the write semaphore is
   free exactly when neither a writer nor the readers as a group hold it.
   */
  ghost predicate Inv(s: Sys) {
    && HasGroup(s.bank, s.group)
    && var v, ps := View(s.bank, s.group), s.procs;
    && v.mutex + Holders(ps) == 1
    && v.readers == Counted(ps)
    && (Count(ps, AwaitingWrite) > 0 ==> v.readers == 1)
    && (Count(ps, SignallingWrite) > 0 ==> v.readers == 0)
    && v.write + Count(ps, Writing) + (if ReadersHoldWrite(v, ps) then 1 else 0) == 1
  }

  /**
   The SETVAL loop racing a reader that got through the slot-0 barrier early
   (process 0; process 1 is the creator). After the loop's first call the
   group reads (1,0,0). The reader counts itself and waits for the write
   semaphore, still 0; the loop's next two calls then set the count to 0 and
   the write semaphore to 1. The reader gets in, but the count no longer
   counts it: the invariant is broken, its readerUnlock can never take the
   count, and the write semaphore it holds is never given back.
   */
  lemma PartialInitLosesReaderCount(id: int)
    ensures var s0 := Sys(Initialise(Allocate(6), 1), Group(id, 0), [Idle, Idle]);
      HasGroup(s0.bank, s0.group) && View(s0.bank, s0.group) == Triple(1, 0, 0) && LosesReaderCount(s0)
  {
    var s0 := Sys(Initialise(Allocate(6), 1), Group(id, 0), [Idle, Idle]);
    assert 0 in s0.bank && 1 in s0.bank && 2 in s0.bank;
    EarlyReaderLosesCount(s0);
  }

  /**
   From s0, process 0 enters as a reader and waits for the write semaphore;
   the count and the write semaphore are then set to their initial values,
   and process 0 gets in without being counted.
   */
  ghost predicate LosesReaderCount(s0: Sys)
    requires HasGroup(s0.bank, s0.group)
  {
    var g := s0.group;
    var s1 := Step(s0, 0, ReaderEnter);
    && s1.Some? && s1.value.procs[0] == AwaitingWrite && View(s1.value.bank, g) == Triple(0, 1, 0)
    && var s2 := s1.value.(bank := SetInitial(SetInitial(s1.value.bank, Slot(g, ReadCount)), Slot(g, WriteSem)));
    && HasGroup(s2.bank, g) && View(s2.bank, g) == Triple(0, 0, 1)
    && EntersUncounted(s2)
  }

  /**
   From s, process 0 takes the write semaphore and enters the read section.
   It ends there with the count at 0: the invariant is broken, its own exit
   can never take the count, and no writer can get in.
   */
  ghost predicate EntersUncounted(s: Sys)
    requires HasGroup(s.bank, s.group)
  {
    var s1 := Step(s, 0, ReaderTakeWrite);
    && s1.Some? && HasGroup(s1.value.bank, s.group)
    && var s2 := Step(s1.value, 0, ReaderEntered);
    && s2.Some? && s2.value.procs == [Reading, Idle] && View(s2.value.bank, s.group) == Triple(1, 0, 0)
    && !Inv(s2.value)
    && !Enabled(s2.value, 0, ReaderExit)
    && !Enabled(s2.value, 1, WriterEnter)
  }

  /** One SETVAL call of the creator's loop on slot t. */
  function SetInitial(b: Bank, t: nat): (r: Bank)
    ensures OnlySlotChanged(b, r, t)
    ensures t in b ==> r[t] == InitValue(t)
  {
    if t in b then b[t := InitValue(t)] else b
  }

  /** Any group at (1,0,0) with two idle processes loses a reader's count to the rest of the SETVAL loop. */
  lemma EarlyReaderLosesCount(s0: Sys)
    requires HasGroup(s0.bank, s0.group) && View(s0.bank, s0.group) == Triple(1, 0, 0) && s0.procs == [Idle, Idle]
    ensures LosesReaderCount(s0)
  {
    var g := s0.group;
    var s1 := Step(s0, 0, ReaderEnter).value;
    assert s1.procs == [AwaitingWrite, Idle];
    var b2 := SetInitial(SetInitial(s1.bank, Slot(g, ReadCount)), Slot(g, WriteSem));
    assert View(b2, g) == Triple(0, 0, 1) && HasGroup(b2, g) by {
      SlotOwnership(g, ReadCountMutex, Slot(g, ReadCountMutex));
      SlotOwnership(g, ReadCount, Slot(g, ReadCount));
      SlotOwnership(g, WriteSem, Slot(g, WriteSem));
    }
    LateEntryUncounted(s1.(bank := b2));
  }

  /** A first reader waiting with the mutex held, once the write semaphore is free and the count reads 0, enters uncounted. */
  lemma LateEntryUncounted(s: Sys)
    requires HasGroup(s.bank, s.group) && View(s.bank, s.group) == Triple(0, 0, 1) && s.procs == [AwaitingWrite, Idle]
    ensures EntersUncounted(s)
  {
    var s1 := Step(s, 0, ReaderTakeWrite).value;
    assert s1.procs == [ReleasingEntry, Idle];
    var s2 := Step(s1, 0, ReaderEntered).value;
    assert s2.procs == [Reading, Idle];
    OneReaderCounted();
  }

  /** One process reading and one idle: the count the invariant asks for is 1. */
  lemma OneReaderCounted()
    ensures Counted([Reading, Idle]) == 1
  {
    var ps := [Reading, Idle];
    assert ps[..1] == [Reading] && [Reading][..0] == [];
    assert Count(ps, AwaitingWrite) == 0 && Count(ps, ReleasingEntry) == 0 && Count(ps, Reading) == 1;
  }

  /** n idle processes over a group that createSemaphores has just initialised. */
  ghost predicate Initial(s: Sys) {
    HasGroup(s.bank, s.group) && View(s.bank, s.group) == Unlocked && forall i :: 0 <= i < |s.procs| ==> s.procs[i] == Idle
  }

  lemma {:induction false} CountAllIdle(ps: seq<Pc>, pc: Pc)
    requires pc != Idle && forall i :: 0 <= i < |ps| ==> ps[i] == Idle
    ensures Count(ps, pc) == 0
    decreases |ps|
  {
    if ps != [] {
      CountAllIdle(ps[..|ps| - 1], pc);
    }
  }

  lemma InitialSatisfiesInv(s: Sys)
    requires Initial(s)
    ensures Inv(s)
  {
    CountAllIdle(s.procs, AwaitingWrite);
    CountAllIdle(s.procs, ReleasingEntry);
    CountAllIdle(s.procs, Reading);
    CountAllIdle(s.procs, SignallingWrite);
    CountAllIdle(s.procs, ReleasingExit);
    CountAllIdle(s.procs, Writing);
  }

  /** The steps of readerLock keep the invariant. */
  lemma ReaderEntryPreservesInv(s: Sys, p: nat, a: Action)
    requires Inv(s) && Step(s, p, a).Some?
    requires a == ReaderEnter || a == ReaderTakeWrite || a == ReaderEntered
    ensures Inv(Step(s, p, a).value)
  {
    var s' := Step(s, p, a).value;
    CountsAfterMove(s.procs, p, s'.procs[p]);
    assert s'.procs == s.procs[p := s'.procs[p]];
    CountPositive(s.procs, p);
  }

  /** The steps of readerUnlock keep the invariant. */
  lemma ReaderExitPreservesInv(s: Sys, p: nat, a: Action)
    requires Inv(s) && Step(s, p, a).Some?
    requires a == ReaderExit || a == ReaderGiveWrite || a == ReaderLeft
    ensures Inv(Step(s, p, a).value)
  {
    var s' := Step(s, p, a).value;
    CountsAfterMove(s.procs, p, s'.procs[p]);
    assert s'.procs == s.procs[p := s'.procs[p]];
    CountPositive(s.procs, p);
  }

  /** writerLock and writerUnlock keep the invariant. */
  lemma WriterPreservesInv(s: Sys, p: nat, a: Action)
    requires Inv(s) && Step(s, p, a).Some?
    requires a == WriterEnter || a == WriterLeave
    ensures Inv(Step(s, p, a).value)
  {
    var s' := Step(s, p, a).value;
    CountsAfterMove(s.procs, p, s'.procs[p]);
    assert s'.procs == s.procs[p := s'.procs[p]];
    CountPositive(s.procs, p);
  }

  /** Every enabled step keeps the invariant. */
  lemma StepPreservesInv(s: Sys, p: nat, a: Action)
    requires Inv(s) && Step(s, p, a).Some?
    ensures Inv(Step(s, p, a).value)
  {
    match a
    case ReaderEnter | ReaderTakeWrite | ReaderEntered => ReaderEntryPreservesInv(s, p, a);
    case ReaderExit | ReaderGiveWrite | ReaderLeft => ReaderExitPreservesInv(s, p, a);
    case WriterEnter | WriterLeave => WriterPreservesInv(s, p, a);
  }

  /** Runs a schedule of moves; None as soon as one of them is not enabled. */
  function Run(s: Sys, moves: seq<Move>): (r: Option<Sys>)
    requires HasGroup(s.bank, s.group)
    ensures r.Some? ==> r.value.group == s.group && HasGroup(r.value.bank, s.group)
    decreases |moves|
  {
    if moves == [] then Some(s)
    else
      match Step(s, moves[0].pid, moves[0].action)
      case None => None
      case Some(s1) => Run(s1, moves[1..])
  }

  lemma {:induction false} RunPreservesInv(s: Sys, moves: seq<Move>)
    requires Inv(s) && Run(s, moves).Some?
    ensures Inv(Run(s, moves).value)
    decreases |moves|
  {
    if moves != [] {
      var s1 := Step(s, moves[0].pid, moves[0].action).value;
      StepPreservesInv(s, moves[0].pid, moves[0].action);
      RunPreservesInv(s1, moves[1..]);
    }
  }

  /**
   Mutual exclusion in any state the invariant allows: at most one writer,
   no writer while a reader is inside or past the write semaphore, and the
   write semaphore is 0 or 1.
   */
  lemma Exclusion(s: Sys)
    requires Inv(s)
    ensures Count(s.procs, Writing) <= 1
    ensures Count(s.procs, Writing) > 0 ==> Count(s.procs, Reading) == 0 && Count(s.procs, ReleasingEntry) == 0
    ensures Count(s.procs, Writing) > 0 ==> View(s.bank, s.group).readers == Count(s.procs, AwaitingWrite)
    ensures View(s.bank, s.group).write <= 1
    ensures View(s.bank, s.group).mutex <= 1
  {
  }

  /** Whatever the schedule, from the initial state no writer ever shares the group. */
  lemma MutualExclusion(s: Sys, moves: seq<Move>)
    requires Initial(s) && Run(s, moves).Some?
    ensures var t := Run(s, moves).value;
      && Count(t.procs, Writing) <= 1
      && (Count(t.procs, Writing) > 0 ==> Count(t.procs, Reading) == 0)
      && View(t.bank, t.group).write <= 1
  {
    InitialSatisfiesInv(s);
    RunPreservesInv(s, moves);
    Exclusion(Run(s, moves).value);
  }
}

=== FILE: semaphore_set.dfy ===
/**
 The readers-writers lock built on a bank of kernel counting semaphores
 (class SemaphoreSet).

 A kernel semaphore set is modelled as a map from slot number to value. One
 set hosts several independent locks: group k owns slots 3k, 3k+1 and 3k+2,
 holding the reader-count mutex, the reader count and the write semaphore.
 A wait is a guard: it is enabled only while the slot is positive, and a
 function that would have to block returns None instead.
 */
module SemaphoreSet {
  import opened Common

  /** Values of one kernel semaphore set, indexed by slot number. */
  type Bank = map<nat, nat>

  // ---------------------------------------------------------------------------
  // Slot layout
  // ---------------------------------------------------------------------------

  /** The three slots of a group, in the order the group lays them out. */
  datatype Role = ReadCountMutex | ReadCount | WriteSem

  function Offset(r: Role): nat {
    match r
    case ReadCountMutex => 0
    case ReadCount => 1
    case WriteSem => 2
  }

  function RoleAt(o: nat): Role
    requires o < 3
  {
    if o == 0 then ReadCountMutex else if o == 1 then ReadCount else WriteSem
  }

  /** A SemaphoreSet object: the kernel set it uses and its group number. */
  datatype Group = Group(setId: int, index: nat)

  /** The slot the constructor assigns to role r of group g. */
  function Slot(g: Group, r: Role): nat {
    3 * g.index + Offset(r)
  }

  /** Slot s serves role r of group g exactly when s / 3 is the group and s % 3 the role. */
  lemma SlotOwnership(g: Group, r: Role, s: nat)
    ensures Slot(g, r) == s <==> (s / 3 == g.index && RoleAt(s % 3) == r)
  {
  }

  /** Distinct groups never share a slot. */
  lemma GroupsDisjoint(g: Group, h: Group, r: Role, q: Role)
    requires g.index != h.index
    ensures Slot(g, r) != Slot(h, q)
  {
    SlotOwnership(g, r, Slot(g, r));
    SlotOwnership(h, q, Slot(g, r));
  }

  /** Within a group, the three roles occupy three different slots in the order mutex, count, write. */
  lemma SlotOrder(g: Group)
    ensures Slot(g, ReadCountMutex) < Slot(g, ReadCount) < Slot(g, WriteSem)
    ensures Slot(g, WriteSem) - Slot(g, ReadCountMutex) == 2
  {
  }

  predicate HasGroup(b: Bank, g: Group) {
    Slot(g, ReadCountMutex) in b && Slot(g, ReadCount) in b && Slot(g, WriteSem) in b
  }

  /** The values of one group's three slots. */
  datatype Triple = Triple(mutex: nat, readers: nat, write: nat)

  /** The state createSemaphores gives every group: mutex 1, no readers, write free. */
  const Unlocked := Triple(1, 0, 1)

  function View(b: Bank, g: Group): Triple
    requires HasGroup(b, g)
  {
    Triple(b[Slot(g, ReadCountMutex)], b[Slot(g, ReadCount)], b[Slot(g, WriteSem)])
  }

  /** b' has the same slots as b and differs from it at most in slot s. */
  predicate OnlySlotChanged(b: Bank, b': Bank, s: nat) {
    b'.Keys == b.Keys && forall t :: t in b && t != s ==> b'[t] == b[t]
  }

  /** b' has the same slots as b and differs from it at most in the slots of group g. */
  predicate OnlyGroupChanged(b: Bank, b': Bank, g: Group) {
    b'.Keys == b.Keys && forall t :: t in b && t / 3 != g.index ==> b'[t] == b[t]
  }

  /** Two banks that agree outside group g and on g's three slots are equal. */
  lemma SameViewSameBank(b: Bank, b': Bank, g: Group)
    requires HasGroup(b, g) && OnlyGroupChanged(b, b', g)
    requires HasGroup(b', g) && View(b', g) == View(b, g)
    ensures b' == b
  {
    forall t | t in b
      ensures b'[t] == b[t]
    {
      if t / 3 == g.index {
        SlotOwnership(g, RoleAt(t % 3), t);
      }
    }
  }

  // ---------------------------------------------------------------------------
  // genericWait / genericSignal
  // ---------------------------------------------------------------------------

  /**
   genericWait: decrement slot s. Enabled only while the value is positive;
   otherwise the caller would block, and the result is None. A slot the set
   does not have makes semop fail, which the source reports and ignores.
   */
  function Wait(b: Bank, s: nat): (r: Option<Bank>)
    ensures s !in b ==> r == Some(b)
    ensures s in b ==> (r.Some? <==> b[s] > 0)
    ensures r.Some? ==> OnlySlotChanged(b, r.value, s)
    ensures r.Some? && s in b ==> r.value[s] + 1 == b[s]
  {
    if s !in b then Some(b)
    else if b[s] == 0 then None
    else Some(b[s := b[s] - 1])
  }

  /** genericSignal: increment slot s; never blocks. */
  function Signal(b: Bank, s: nat): (r: Bank)
    ensures OnlySlotChanged(b, r, s)
    ensures s in b ==> r[s] == b[s] + 1
  {
    if s !in b then b else b[s := b[s] + 1]
  }

  /** A change confined to one slot of group g is confined to group g. */
  lemma SlotChangeInGroup(b: Bank, b': Bank, g: Group, r: Role)
    requires OnlySlotChanged(b, b', Slot(g, r))
    ensures OnlyGroupChanged(b, b', g)
  {
    SlotOwnership(g, r, Slot(g, r));
  }

  lemma GroupChangeTrans(b: Bank, b': Bank, b'': Bank, g: Group)
    requires OnlyGroupChanged(b, b', g) && OnlyGroupChanged(b', b'', g)
    ensures OnlyGroupChanged(b, b'', g)
  {
  }

  // ---------------------------------------------------------------------------
  // The four lock operations
  // ---------------------------------------------------------------------------

  /**
   readerLock: P(mutex); V(count); if the count is now 1, P(write); V(mutex).
   None means the calling process cannot get through without blocking.
   */
  function ReaderLock(b: Bank, g: Group): (r: Option<Bank>)
    requires HasGroup(b, g)
    ensures var v := View(b, g); r.Some? <==> v.mutex > 0 && (v.readers == 0 ==> v.write > 0)
    ensures r.Some? ==> HasGroup(r.value, g) && OnlyGroupChanged(b, r.value, g)
    ensures r.Some? ==> View(r.value, g).mutex == View(b, g).mutex
    ensures r.Some? ==> View(r.value, g).readers == View(b, g).readers + 1
    ensures r.Some? ==> (View(r.value, g).readers == 1 <==> View(r.value, g).write + 1 == View(b, g).write)
    ensures r.Some? && View(r.value, g).readers != 1 ==> View(r.value, g).write == View(b, g).write
  {
    var mutex, count, write := Slot(g, ReadCountMutex), Slot(g, ReadCount), Slot(g, WriteSem);
    match Wait(b, mutex)
    case None => None
    case Some(b1) =>
      var b2 := Signal(b1, count);
      var b3 := if b2[count] == 1 then Wait(b2, write) else Some(b2);
      match b3
      case None => None
      case Some(b4) =>
        var b5 := Signal(b4, mutex);
        SlotChangeInGroup(b, b1, g, ReadCountMutex);
        SlotChangeInGroup(b1, b2, g, ReadCount);
        SlotChangeInGroup(b2, b4, g, WriteSem);
        SlotChangeInGroup(b4, b5, g, ReadCountMutex);
        Some(b5)
  }

  /**
   readerUnlock: P(mutex); P(count); if the count is now 0, V(write); V(mutex).
   */
  function ReaderUnlock(b: Bank, g: Group): (r: Option<Bank>)
    requires HasGroup(b, g)
    ensures var v := View(b, g); r.Some? <==> v.mutex > 0 && v.readers > 0
    ensures r.Some? ==> HasGroup(r.value, g) && OnlyGroupChanged(b, r.value, g)
    ensures r.Some? ==> View(r.value, g).mutex == View(b, g).mutex
    ensures r.Some? ==> View(r.value, g).readers + 1 == View(b, g).readers
    ensures r.Some? ==> (View(r.value, g).readers == 0 <==> View(r.value, g).write == View(b, g).write + 1)
    ensures r.Some? && View(r.value, g).readers != 0 ==> View(r.value, g).write == View(b, g).write
  {
    var mutex, count, write := Slot(g, ReadCountMutex), Slot(g, ReadCount), Slot(g, WriteSem);
    match Wait(b, mutex)
    case None => None
    case Some(b1) =>
      match Wait(b1, count)
      case None => None
      case Some(b2) =>
        var b3 := if b2[count] == 0 then Signal(b2, write) else b2;
        var b4 := Signal(b3, mutex);
        SlotChangeInGroup(b, b1, g, ReadCountMutex);
        SlotChangeInGroup(b1, b2, g, ReadCount);
        SlotChangeInGroup(b2, b3, g, WriteSem);
        SlotChangeInGroup(b3, b4, g, ReadCountMutex);
        Some(b4)
  }

  /** writerLock: P(write). */
  function WriterLock(b: Bank, g: Group): (r: Option<Bank>)
    requires HasGroup(b, g)
    ensures r.Some? <==> View(b, g).write > 0
    ensures r.Some? ==> HasGroup(r.value, g) && OnlySlotChanged(b, r.value, Slot(g, WriteSem))
    ensures r.Some? ==> View(r.value, g) == View(b, g).(write := View(b, g).write - 1)
  {
    Wait(b, Slot(g, WriteSem))
  }

  /** writerUnlock: V(write). */
  function WriterUnlock(b: Bank, g: Group): (r: Bank)
    requires HasGroup(b, g)
    ensures HasGroup(r, g) && OnlySlotChanged(b, r, Slot(g, WriteSem))
    ensures View(r, g) == View(b, g).(write := View(b, g).write + 1)
  {
    Signal(b, Slot(g, WriteSem))
  }

  /** A reader that locks and then unlocks leaves the bank exactly as it found it. */
  lemma ReaderRoundTrip(b: Bank, g: Group)
    requires HasGroup(b, g) && ReaderLock(b, g).Some?
    ensures ReaderUnlock(ReaderLock(b, g).value, g) == Some(b)
  {
    var b1 := ReaderLock(b, g).value;
    var b2 := ReaderUnlock(b1, g).value;
    GroupChangeTrans(b, b1, b2, g);
    SameViewSameBank(b, b2, g);
  }

  /** A writer that locks and then unlocks leaves the bank exactly as it found it. */
  lemma WriterRoundTrip(b: Bank, g: Group)
    requires HasGroup(b, g) && WriterLock(b, g).Some?
    ensures WriterUnlock(WriterLock(b, g).value, g) == b
  {
    var b1 := WriterLock(b, g).value;
    var b2 := WriterUnlock(b1, g);
    SlotChangeInGroup(b, b1, g, WriteSem);
    SlotChangeInGroup(b1, b2, g, WriteSem);
    SameViewSameBank(b, b2, g);
  }

  // ---------------------------------------------------------------------------
  // Lock traces: what a critical section does to its group
  // ---------------------------------------------------------------------------

  datatype Mode = Shared | Exclusive

  /** One call a critical section makes on its SemaphoreSet. */
  datatype LockOp = Lock(mode: Mode) | Unlock(mode: Mode)

  /** The trace of a critical section that releases what it took. */
  function Bracket(m: Mode): seq<LockOp> {
    [Lock(m), Unlock(m)]
  }

  function Apply(b: Bank, g: Group, op: LockOp): (r: Option<Bank>)
    requires HasGroup(b, g)
    ensures r.Some? ==> HasGroup(r.value, g) && OnlyGroupChanged(b, r.value, g)
  {
    match op
    case Lock(Shared) => ReaderLock(b, g)
    case Unlock(Shared) => ReaderUnlock(b, g)
    case Lock(Exclusive) =>
      var r := WriterLock(b, g);
      if r.Some? then SlotChangeInGroup(b, r.value, g, WriteSem); r else r
    case Unlock(Exclusive) =>
      var r := WriterUnlock(b, g);
      SlotChangeInGroup(b, r, g, WriteSem);
      Some(r)
  }

  /** Runs a trace of lock calls by one process; None if some call would block. */
  function ApplyAll(b: Bank, g: Group, ops: seq<LockOp>): (r: Option<Bank>)
    requires HasGroup(b, g)
    ensures r.Some? ==> HasGroup(r.value, g) && OnlyGroupChanged(b, r.value, g)
    decreases |ops|
  {
    if ops == [] then Some(b)
    else
      match Apply(b, g, ops[0])
      case None => None
      case Some(b1) =>
        var r := ApplyAll(b1, g, ops[1..]);
        if r.Some? then GroupChangeTrans(b, b1, r.value, g); r else r
  }

  /** A bracketed critical section whose lock call gets through leaves the bank unchanged. */
  lemma BracketRestores(b: Bank, g: Group, m: Mode)
    requires HasGroup(b, g) && Apply(b, g, Lock(m)).Some?
    ensures ApplyAll(b, g, Bracket(m)) == Some(b)
  {
    var b1 := Apply(b, g, Lock(m)).value;
    match m {
      case Shared => ReaderRoundTrip(b, g);
      case Exclusive => WriterRoundTrip(b, g);
    }
    assert Bracket(m)[1..] == [Unlock(m)];
    assert [Unlock(m)][1..] == [];
  }

  /** A trace of complete critical sections, each lock call followed at once by its release. */
  predicate Balanced(ops: seq<LockOp>)
    decreases |ops|
  {
    ops == [] || (|ops| >= 2 && ops[..2] == Bracket(ops[0].mode) && Balanced(ops[2..]))
  }

  /** A bracket is one complete critical section; a lone lock call is not. */
  lemma BracketBalanced(m: Mode)
    ensures Balanced(Bracket(m)) && !Balanced([Lock(m)])
  {
    assert Bracket(m)[..2] == Bracket(m) && Bracket(m)[2..] == [];
  }

  /** Complete critical sections one after another are complete critical sections. */
  lemma {:induction false} BalancedConcat(a: seq<LockOp>, c: seq<LockOp>)
    ensures Balanced(a) ==> (Balanced(a + c) <==> Balanced(c))
    decreases |a|
  {
    if !Balanced(a) {
    } else if a == [] {
      assert a + c == c;
    } else {
      assert (a + c)[0] == a[0] && (a + c)[..2] == a[..2];
      assert (a + c)[2..] == a[2..] + c;
      BalancedConcat(a[2..], c);
    }
  }

  /** The number of lock calls in a trace not matched by a release: locks count one up, releases one down. */
  function Held(ops: seq<LockOp>): int
    decreases |ops|
  {
    if ops == [] then 0 else (if ops[0].Lock? then 1 else -1) + Held(ops[1..])
  }

  /** The count is additive over a trace split in two. */
  lemma {:induction false} HeldConcat(a: seq<LockOp>, c: seq<LockOp>)
    ensures Held(a + c) == Held(a) + Held(c)
    decreases |a|
  {
    if a == [] {
      assert a + c == c;
    } else {
      assert (a + c)[0] == a[0] && (a + c)[1..] == a[1..] + c;
      HeldConcat(a[1..], c);
    }
  }

  /** Complete critical sections leave no lock call unmatched, so a trace that leaves one is not complete. */
  lemma {:induction false} BalancedHeldNone(ops: seq<LockOp>)
    ensures Balanced(ops) ==> Held(ops) == 0
    decreases |ops|
  {
    if ops != [] && Balanced(ops) {
      assert ops[0].Lock? && ops[1].Unlock? && ops[1..][1..] == ops[2..];
      BalancedHeldNone(ops[2..]);
    }
  }

  /** From an unlocked group, a trace of complete critical sections gets through and leaves the bank as it was. */
  lemma {:induction false} BalancedRestores(b: Bank, g: Group, ops: seq<LockOp>)
    requires HasGroup(b, g) && View(b, g) == Unlocked && Balanced(ops)
    ensures ApplyAll(b, g, ops) == Some(b)
    decreases |ops|
  {
    if ops != [] {
      var m := ops[0].mode;
      assert ops[0] == Lock(m) && ops[1] == Unlock(m);
      UnlockedAdmitsBoth(b, g);
      var b1 := Apply(b, g, Lock(m)).value;
      match m {
        case Shared => ReaderRoundTrip(b, g);
        case Exclusive => WriterRoundTrip(b, g);
      }
      assert Apply(b1, g, Unlock(m)) == Some(b);
      assert ops[1..][0] == Unlock(m) && ops[1..][1..] == ops[2..];
      BalancedRestores(b, g, ops[2..]);
    }
  }

  /** From the initial state both kinds of lock are available. */
  lemma UnlockedAdmitsBoth(b: Bank, g: Group)
    requires HasGroup(b, g) && View(b, g) == Unlocked
    ensures Apply(b, g, Lock(Shared)).Some? && Apply(b, g, Lock(Exclusive)).Some?
    ensures View(ReaderLock(b, g).value, g) == Triple(1, 1, 0)
  {
  }

  // ---------------------------------------------------------------------------
  // createSemaphores / destroySemaphores
  // ---------------------------------------------------------------------------

  /**
   The kernel's semaphore sets, by key. The id semget hands back is opaque to
   the program, so a set is identified here with the key it was created under;
   both keys the programs use (the port number and the user id) are
   non-negative, so -1 stays free to mean failure.
   */
  datatype Kernel = Kernel(sets: map<nat, Bank>)

  /** Which of createSemaphores' system calls fails, if any. */
  datatype SemFault =
    | NoFault
    | LookupFails             // semget(key, n, 0) fails with an error other than ENOENT
    | CreateFails             // semget(key, n, IPC_CREAT) fails
    | InitFailsAt(call: nat)  // the SETVAL of slot `call` fails; earlier slots are set

  /** The value createSemaphores gives slot s: mutex 1, count 0, write 1. */
  function InitValue(s: nat): nat {
    if s % 3 == 1 then 0 else 1
  }

  predicate HasSlots(b: Bank, n: nat) {
    forall s: nat :: s < n ==> s in b
  }

  /** The slot numbers 0 .. n-1. */
  function SlotsBelow(n: nat): (r: set<nat>)
    ensures forall s: nat :: s in r <==> s < n
  {
    if n == 0 then {} else SlotsBelow(n - 1) + {n - 1}
  }

  /** A freshly allocated set of n slots, every value 0. */
  function Allocate(n: nat): (b: Bank)
    ensures b.Keys == SlotsBelow(n)
  {
    map s | s in SlotsBelow(n) :: 0
  }

  /** The SETVAL loop, which sets slots in increasing order, after its first `done` calls. */
  function Initialise(b: Bank, done: nat): (r: Bank)
    ensures r.Keys == b.Keys
    ensures forall s :: s in b ==> r[s] == if s < done then InitValue(s) else b[s]
  {
    map s | s in b :: if s < done then InitValue(s) else b[s]
  }

  /** The bank createSemaphores leaves behind when every call succeeds. */
  function InitialBank(numSets: nat): Bank {
    Initialise(Allocate(3 * numSets), 3 * numSets)
  }

  /** Every group of a fully initialised set starts unlocked. */
  lemma InitialBankUnlocked(numSets: nat, k: nat, id: int)
    requires k < numSets
    ensures HasGroup(InitialBank(numSets), Group(id, k))
    ensures View(InitialBank(numSets), Group(id, k)) == Unlocked
    ensures HasSlots(InitialBank(numSets), 3 * numSets)
  {
    var g := Group(id, k);
    SlotOwnership(g, ReadCountMutex, Slot(g, ReadCountMutex));
    SlotOwnership(g, ReadCount, Slot(g, ReadCount));
    SlotOwnership(g, WriteSem, Slot(g, WriteSem));
  }

  /** Result of createSemaphores: the kernel afterwards and the id (-1 on failure), or Blocked. */
  datatype Created = Created(kernel: Kernel, semid: int) | Blocked

  /** First step: semget(key, n, 0), which asks whether the set exists. */
  datatype Probe = Found | Missing | ProbeFailed

  function ProbeSet(k: Kernel, key: nat, n: nat, fault: SemFault): (r: Probe)
    ensures r == Found <==> fault != LookupFails && key in k.sets && HasSlots(k.sets[key], n)
    ensures r == Missing <==> fault != LookupFails && key !in k.sets
  {
    if fault == LookupFails then ProbeFailed
    else if key !in k.sets then Missing
    // an existing set with fewer than n slots makes semget fail with EINVAL
    else if !HasSlots(k.sets[key], n) then ProbeFailed
    else Found
  }

  /**
   The attach path: genericWait then genericSignal on slot 0, which gets
   through only once the creator has set that mutex to 1.
   */
  function Barrier(k: Kernel, key: nat): (r: Created)
    requires key in k.sets
    ensures 0 in k.sets[key] ==> (r.Blocked? <==> k.sets[key][0] == 0)
    ensures r.Created? ==> r == Created(k, key)
  {
    var b := k.sets[key];
    match Wait(b, 0)
    case None => Blocked
    case Some(b1) =>
      var b2 := Signal(b1, 0);
      assert b2 == b;
      Created(Kernel(k.sets[key := b2]), key)
  }

  /**
   The barrier waits only on slot 0, which the SETVAL loop sets first: once
   the creator has made that one call, an attacher gets through while the
   rest of the set still reads 0.
   */
  lemma BarrierPassesPartialInit(key: nat, numSets: nat)
    requires numSets >= 1
    ensures var b := Initialise(Allocate(3 * numSets), 1);
      && View(b, Group(key, 0)) == Triple(1, 0, 0)
      && Barrier(Kernel(map[key := b]), key) == Created(Kernel(map[key := b]), key)
  {
    var b := Initialise(Allocate(3 * numSets), 1);
    assert 0 in b && 1 in b && 2 in b;
  }

  /**
   Second step of the source's create path: semget(key, n, IPC_CREAT) and
   the SETVAL loop. Without IPC_EXCL this call hands back a set that another
   process created since the probe, and the loop then overwrites its values.
   */
  function CreateAndInitialise(k: Kernel, key: nat, n: nat, fault: SemFault): (r: (Kernel, int))
    ensures r.1 == -1 || r.1 == key
    ensures fault == CreateFails || n == 0 ==> r == (k, -1)
    ensures fault.InitFailsAt? && fault.call < n ==> r.1 == -1
    ensures key in k.sets && !HasSlots(k.sets[key], n) ==> r == (k, -1)
    ensures key !in k.sets && fault == NoFault && n > 0 ==> r == (Kernel(k.sets[key := Initialise(Allocate(n), n)]), key)
    // the set is handed back even though it exists, and every one of its n slots is written over
    ensures key in k.sets && HasSlots(k.sets[key], n) && fault == NoFault && n > 0 ==>
              r == (Kernel(k.sets[key := Initialise(k.sets[key], n)]), key)
    ensures forall other: nat :: other != key && other in k.sets ==> other in r.0.sets && r.0.sets[other] == k.sets[other]
  {
    if fault == CreateFails || n == 0 then (k, -1)
    else if key in k.sets && !HasSlots(k.sets[key], n) then (k, -1)
    else
      var base := if key in k.sets then k.sets[key] else Allocate(n);
      if fault.InitFailsAt? && fault.call < n then
        (Kernel(k.sets[key := Initialise(base, fault.call)]), -1)
      else
        (Kernel(k.sets[key := Initialise(base, n)]), key as int)
  }

  /**
   createSemaphores as written: probe, then either wait out the initialiser of
   an existing set or create and initialise one. Called by one process with
   no other process acting in between.
   */
  function CreateSemaphoresAsWritten(k: Kernel, key: nat, numSets: nat, fault: SemFault): (r: Created)
    ensures fault == LookupFails ==> r == Created(k, -1)
    ensures key in k.sets && !HasSlots(k.sets[key], 3 * numSets) ==> r == Created(k, -1)
    ensures key in k.sets && fault != LookupFails && HasSlots(k.sets[key], 3 * numSets) ==>
              && (r.Blocked? <==> (0 in k.sets[key] && k.sets[key][0] == 0))
              && (r.Created? ==> r == Created(k, key))
    ensures key !in k.sets && fault == NoFault && numSets > 0 ==>
              r == Created(Kernel(k.sets[key := InitialBank(numSets)]), key)
    ensures key !in k.sets && fault != LookupFails ==> r.Created? && (r.semid == -1 <==>
              numSets == 0 || fault == CreateFails || (fault.InitFailsAt? && fault.call < 3 * numSets))
    ensures r.Created? ==> forall other: nat :: other != key && other in k.sets ==> other in r.kernel.sets && r.kernel.sets[other] == k.sets[other]
  {
    match ProbeSet(k, key, 3 * numSets, fault)
    case ProbeFailed => Created(k, -1)
    case Found => Barrier(k, key)
    case Missing =>
      var (k', id) := CreateAndInitialise(k, key, 3 * numSets, fault);
      Created(k', id)
  }

  /**
   createSemaphores with the create call made exclusive (IPC_CREAT|IPC_EXCL):
   if the set exists by then, fall back to attaching through the barrier, so
   an existing set is never written.
   */
  function CreateSemaphores(k: Kernel, key: nat, numSets: nat, fault: SemFault): (r: Created)
    ensures key in k.sets ==> r.Blocked? || r.kernel == k
    ensures key in k.sets && fault != LookupFails && HasSlots(k.sets[key], 3 * numSets) ==>
              (r.Blocked? <==> (0 in k.sets[key] && k.sets[key][0] == 0))
    ensures key in k.sets && (fault == LookupFails || !HasSlots(k.sets[key], 3 * numSets)) ==> r == Created(k, -1)
    ensures key in k.sets && fault != LookupFails && HasSlots(k.sets[key], 3 * numSets) && r.Created? ==> r == Created(k, key)
    ensures key !in k.sets && fault == NoFault && numSets > 0 ==>
              r == Created(Kernel(k.sets[key := InitialBank(numSets)]), key)
    ensures key !in k.sets ==> r.Created? && (r.semid == -1 <==>
              numSets == 0 || fault == CreateFails || (fault.InitFailsAt? && fault.call < 3 * numSets))
    ensures r.Created? ==> forall other: nat :: other != key && other in k.sets ==> other in r.kernel.sets && r.kernel.sets[other] == k.sets[other]
  {
    var n := 3 * numSets;
    if key in k.sets then
      // EEXIST: attach with semget(key, n, 0), then wait out the initialiser
      if fault == LookupFails || !HasSlots(k.sets[key], n) then Created(k, -1)
      else Barrier(k, key)
    else
      var (k', id) := CreateAndInitialise(k, key, n, fault);
      Created(k', id)
  }

  /** When no other process acts in between, the two versions agree. */
  lemma CreateSemaphoresAgree(k: Kernel, key: nat, numSets: nat, fault: SemFault)
    requires fault != LookupFails || key in k.sets
    ensures CreateSemaphoresAsWritten(k, key, numSets, fault) == CreateSemaphores(k, key, numSets, fault)
  {
  }

  /** A second createSemaphores on the same key returns the same set, with its values untouched. */
  lemma CreateTwiceSameSet(k: Kernel, key: nat, numSets: nat)
    requires key !in k.sets && numSets > 0
    ensures var first := CreateSemaphores(k, key, numSets, NoFault);
      first.Created? && first.semid == key &&
      CreateSemaphores(first.kernel, key, numSets, NoFault) == first
  {
    var first := CreateSemaphores(k, key, numSets, NoFault);
    InitialBankUnlocked(numSets, 0, key);
    assert Slot(Group(key, 0), ReadCountMutex) == 0;
  }

  /**
   The source probes and creates in two separate calls. If process B creates
   the set and enters as a writer after process A's probe found nothing, A's
   create call (IPC_CREAT without IPC_EXCL) hands back B's set and A's SETVAL
   loop frees the write semaphore B holds, so A can enter as a second writer.
   */
  lemma CreateRaceReinitialisesHeldLock(k0: Kernel, key: nat)
    requires key !in k0.sets
    ensures var g := Group(key, 0);
      var kB := CreateSemaphoresAsWritten(k0, key, 2, NoFault).kernel;
      && ProbeSet(k0, key, 6, NoFault) == Missing
      && key in kB.sets && HasGroup(kB.sets[key], g)
      && WriterLock(kB.sets[key], g).Some?
      && var held := WriterLock(kB.sets[key], g).value;
      var kA := CreateAndInitialise(Kernel(kB.sets[key := held]), key, 6, NoFault).0;
      && View(held, g).write == 0
      && key in kA.sets && HasGroup(kA.sets[key], g)
      && View(kA.sets[key], g).write == 1
      && WriterLock(kA.sets[key], g).Some?
  {
    var g := Group(key, 0);
    InitialBankUnlocked(2, 0, key);
    var kB := CreateSemaphoresAsWritten(k0, key, 2, NoFault).kernel;
    assert kB.sets[key] == InitialBank(2);
    var held := WriterLock(kB.sets[key], g).value;
    assert HasSlots(held, 6);
    ReinitialiseUnlocks(held, 6, g);
    assert CreateAndInitialise(Kernel(kB.sets[key := held]), key, 6, NoFault).0.sets[key] == Initialise(held, 6);
  }

  /** The SETVAL loop puts every group it covers back to unlocked, whatever it held. */
  lemma ReinitialiseUnlocks(b: Bank, n: nat, g: Group)
    requires HasGroup(b, g) && Slot(g, WriteSem) < n
    ensures HasGroup(Initialise(b, n), g) && View(Initialise(b, n), g) == Unlocked
  {
    SlotOwnership(g, ReadCountMutex, Slot(g, ReadCountMutex));
    SlotOwnership(g, ReadCount, Slot(g, ReadCount));
    SlotOwnership(g, WriteSem, Slot(g, WriteSem));
  }

  /**
   With an exclusive create the same interleaving is harmless: A finds the
   set, attaches through the barrier without writing it, and its writer lock
   waits for B.
   */
  lemma ExclusiveCreateKeepsHeldLock(k0: Kernel, key: nat)
    requires key !in k0.sets
    ensures var g := Group(key, 0);
      var kB := CreateSemaphores(k0, key, 2, NoFault).kernel;
      && key in kB.sets && HasGroup(kB.sets[key], g)
      && WriterLock(kB.sets[key], g).Some?
      && var held := WriterLock(kB.sets[key], g).value;
      var kA := CreateSemaphores(Kernel(kB.sets[key := held]), key, 2, NoFault);
      && kA == Created(Kernel(kB.sets[key := held]), key)
      && WriterLock(held, g).None?
  {
    var g := Group(key, 0);
    InitialBankUnlocked(2, 0, key);
    var kB := CreateSemaphores(k0, key, 2, NoFault).kernel;
    assert kB.sets[key] == InitialBank(2);
    var held := WriterLock(kB.sets[key], g).value;
    assert Slot(g, ReadCountMutex) == 0 && Slot(g, WriteSem) == 2;
    assert held[0] == 1;
    assert HasSlots(held, 6);
    var k1 := Kernel(kB.sets[key := held]);
    assert Barrier(k1, key) == Created(k1, key);
  }

  /**
   destroySemaphores: IPC_RMID removes the whole set, every group in it;
   removing a set that is already gone fails and changes nothing.
   */
  function DestroySemaphores(k: Kernel, setId: nat): (r: Kernel)
    ensures setId !in r.sets
    ensures forall other: nat :: other != setId ==> (other in r.sets <==> other in k.sets)
    ensures forall other: nat :: other != setId && other in k.sets ==> r.sets[other] == k.sets[other]
  {
    Kernel(k.sets - {setId})
  }
}

=== FILE: server.dfy ===
/**
 The data server's reply computation (class Server).

 A forked server child answers one client. Each request is a Record_Message;
 the reply functions consult and change two record stores: the data file of
 Records (guarded by semaphore group 0) and the server log of entries
 (guarded by group 1). Every reply is a pure function of the request, the
 two files, the client's address, and the kernel's answers to each store
 call, which come in as Faults. Socket writes become the list of packets
 sent.
 */
module Server {
  import opened Common
  import opened SemaphoreSet
  import opened CriticalFile

  // ---------------------------------------------------------------------------
  // Packets and files
  // ---------------------------------------------------------------------------

  /**
   The four market-share fields of a record. They are floats that the server
   only copies, so they are kept as their raw 32-bit patterns.
   */
  datatype Shares = Shares(android: bv32, ios: bv32, kaios: bv32, other: bv32)

  datatype Record = Record(month: int, shares: Shares)

  /** A Record whose bytes are all zero. */
  const ZeroRecord := Record(0, Shares(0, 0, 0, 0))

  /** sizeof(Record): five 4-byte fields. */
  const RecordBytes: RecordSize := 20

  /** Record_Message: the request and reply packet. */
  datatype Message = Message(action: int, arg: int, record: Record)

  /** A client's address as the accepted socket reports it. */
  datatype Peer = Peer(ipaddr: string, port: int)

  /** Server_Log_Entry: who asked, what was done, and its argument. */
  datatype LogEntry = LogEntry(peer: Peer, action: int, arg: int)

  const ZeroEntry := LogEntry(Peer("", 0), 0, 0)

  /** sizeof(Server_Log_Entry): a 16-byte address buffer and three ints. */
  const LogEntryBytes: RecordSize := 28

  /** Log_Message: one entry of the log stream; arg 1 means more follow, 0 ends the stream. */
  datatype LogMessage = LogMessage(arg: int, entry: LogEntry)

  /** What goes down the socket. */
  datatype Packet = RecordPacket(message: Message) | LogPacket(logMessage: LogMessage)

  /** The data file and the server log. */
  datatype Files = Files(data: seq<Record>, log: seq<LogEntry>)

  /** Action codes of requests and log entries. */
  const CountAction := 1
  const ReadAction := 2
  const UpdateAction := 3
  const CreateAction := 4
  const LogAction := 5
  const ConnectAction := 5
  const DisconnectAction := 6

  /**
   The kernel's answers to the store calls of one reply: the data file's
   record count, its main read, append or update, the read-back of the
   written record, and the append to the log.
   */
  datatype Faults = Faults(count: Io, access: Io, readBack: Io, log: Io)

  const NoFaults := Faults(Healthy, Healthy, Healthy, Healthy)

  predicate Succeeds(io: Io) {
    io.seekOk && io.transferOk
  }

  /**
   A reply message, the files afterwards, and the lock calls the reply made on
   the data file's group and on the log's group, in order.
   */
  datatype Reply = Reply(sent: Message, files: Files, dataLocks: seq<LockOp>, logLocks: seq<LockOp>)

  // ---------------------------------------------------------------------------
  // writeLog and the four record replies
  // ---------------------------------------------------------------------------

  /**
   writeLog: append one entry for this client to the server log; a failed
   append is only reported. As written, a failed seek leaves the log's
   writer lock taken.
   */
  function WriteLog(v: Version, log: seq<LogEntry>, peer: Peer, action: int, arg: int, io: Io): (r: Outcome<bool, LogEntry>)
    ensures Succeeds(io) ==> r.file == log + [LogEntry(peer, action, arg)]
    ensures !Succeeds(io) ==> r.file == log
    ensures Balanced(r.locks) <==> v == Corrected || io.seekOk
    ensures !Balanced(r.locks) ==> r.locks == [Lock(Exclusive)]
  {
    WriteRecordIn(v, log, LogEntry(peer, action, arg), io)
  }

  /** The reply's log and its lock calls on the log's group are those of one writeLog(action, arg). */
  predicate LoggedAs(v: Version, files: Files, r: Reply, peer: Peer, action: int, arg: int, io: Io) {
    var w := WriteLog(v, files.log, peer, action, arg, io);
    r.files.log == w.file && r.logLocks == w.locks
  }

  /** countReply: action 1, the data file's record count (or -1), logged. */
  function CountReply(v: Version, files: Files, peer: Peer, faults: Faults): (r: Reply)
    ensures r.sent == Message(CountAction, if faults.count.seekOk then |files.data| else -1, ZeroRecord)
    ensures r.files.data == files.data
    ensures LoggedAs(v, files, r, peer, CountAction, r.sent.arg, faults.log)
    ensures Balanced(r.dataLocks)
  {
    var counted := CheckNumRecords(files.data, RecordBytes, faults.count);
    var w := WriteLog(v, files.log, peer, CountAction, counted.value, faults.log);
    BracketBalanced(Shared);
    Reply(Message(CountAction, counted.value, ZeroRecord), Files(files.data, w.file), counted.locks, w.locks)
  }

  /** The month createReply assigns: the record count before the append, or -1 when counting fails. */
  function NewMonth(data: seq<Record>, countIo: Io): int {
    CheckNumRecords(data, RecordBytes, countIo).value
  }

  /**
   createReply: overwrite the month of the client's record with the current
   record count and append it. On success the reply's arg is that month and
   the reply carries the record read back from that index; otherwise -1. As
   written, the read-back of month -1 (after a failed count) or a failed seek
   leaves a lock of the data file taken.
   */
  function CreateReply(v: Version, files: Files, req: Message, peer: Peer, faults: Faults): (r: Reply)
    ensures r.sent.action == CreateAction
    ensures Succeeds(faults.access) ==>
              && r.files.data == files.data + [req.record.(month := NewMonth(files.data, faults.count))]
              && r.sent.arg == NewMonth(files.data, faults.count)
    ensures Succeeds(faults.access) && faults.count.seekOk && Succeeds(faults.readBack) ==>
              r.sent == Message(CreateAction, |files.data|, req.record.(month := |files.data|))
    ensures !Succeeds(faults.access) ==> r.files.data == files.data && r.sent == Message(CreateAction, -1, ZeroRecord)
    ensures LoggedAs(v, files, r, peer, CreateAction, r.sent.arg, faults.log)
    ensures Balanced(r.dataLocks) <==>
              v == Corrected || (faults.access.seekOk && (!faults.access.transferOk || (faults.count.seekOk && faults.readBack.seekOk)))
  {
    var counted := CheckNumRecords(files.data, RecordBytes, faults.count);
    var month := counted.value;
    var w := WriteRecordIn(v, files.data, req.record.(month := month), faults.access);
    var back := ReadRecordIn(v, w.file, month, RecordBytes, faults.readBack);
    var sent :=
      if w.value then Message(CreateAction, month, back.value.GetOr(ZeroRecord))
      else Message(CreateAction, -1, ZeroRecord);
    var readLocks := if w.value then back.locks else [];
    var logged := WriteLog(v, files.log, peer, CreateAction, sent.arg, faults.log);
    BracketBalanced(Shared);
    BalancedConcat(counted.locks, w.locks + readLocks);
    BalancedConcat(w.locks, readLocks);
    assert !w.value ==> w.locks + readLocks == w.locks;
    Reply(sent, Files(w.file, logged.file), counted.locks + w.locks + readLocks, logged.locks)
  }

  /**
   readReply: the requested record and its index, or -1 and a zeroed record.
   The index is the client's, unchecked; as written, a negative one fails
   the seek and leaves the data file's reader lock taken.
   */
  function ReadReply(v: Version, files: Files, req: Message, peer: Peer, faults: Faults): (r: Reply)
    ensures var ok := Succeeds(faults.access) && 0 <= req.arg < |files.data|;
      r.sent == if ok then Message(ReadAction, req.arg, files.data[req.arg]) else Message(ReadAction, -1, ZeroRecord)
    ensures r.files.data == files.data
    ensures LoggedAs(v, files, r, peer, ReadAction, r.sent.arg, faults.log)
    ensures Balanced(r.dataLocks) <==> v == Corrected || (faults.access.seekOk && req.arg >= 0)
    ensures !Balanced(r.dataLocks) ==> r.dataLocks == [Lock(Shared)]
  {
    var got := ReadRecordIn(v, files.data, req.arg, RecordBytes, faults.access);
    var sent := if got.value.Some? then Message(ReadAction, req.arg, got.value.value) else Message(ReadAction, -1, ZeroRecord);
    var logged := WriteLog(v, files.log, peer, ReadAction, sent.arg, faults.log);
    Reply(sent, Files(files.data, logged.file), got.locks, logged.locks)
  }

  /**
   The body of updateReply after its range check: overwrite record recNum,
   reply with recNum and the record read back, or -1; then log. The data
   file's lock calls are those of the update and the read-back.
   */
  function UpdateAccepted(v: Version, files: Files, req: Message, peer: Peer, faults: Faults): (r: Reply)
    requires req.arg >= 0
    ensures Succeeds(faults.access) ==> r.files.data == Overwrite(files.data, req.arg, req.record, ZeroRecord)
    ensures Succeeds(faults.access) ==> r.sent.arg == req.arg
    ensures Succeeds(faults.access) && Succeeds(faults.readBack) ==> r.sent.record == req.record
    ensures !Succeeds(faults.access) ==> r.files.data == files.data && r.sent == Message(UpdateAction, -1, ZeroRecord)
    ensures r.sent.action == UpdateAction
    ensures LoggedAs(v, files, r, peer, UpdateAction, r.sent.arg, faults.log)
    ensures Balanced(r.dataLocks) <==> v == Corrected || !Succeeds(faults.access) || faults.readBack.seekOk
  {
    var u := UpdateRecord(files.data, req.arg, req.record, ZeroRecord, RecordBytes, faults.access);
    var back := ReadRecordIn(v, u.file, req.arg, RecordBytes, faults.readBack);
    var sent :=
      if u.value then Message(UpdateAction, req.arg, back.value.GetOr(ZeroRecord))
      else Message(UpdateAction, -1, ZeroRecord);
    var readLocks := if u.value then back.locks else [];
    var logged := WriteLog(v, files.log, peer, UpdateAction, sent.arg, faults.log);
    BracketBalanced(Exclusive);
    BalancedConcat(u.locks, readLocks);
    Reply(sent, Files(u.file, logged.file), u.locks + readLocks, logged.locks)
  }

  /** The rejection of an out-of-range update: arg -1, a zeroed record, and no log entry. */
  const UpdateRejected := Message(UpdateAction, -1, ZeroRecord)

  /**
   updateReply as written: it rejects recNum > count or recNum < 0, so
   recNum == count gets through and appends a new record by way of update.
   The count takes a complete reader critical section first.
   */
  function UpdateReplyAsWritten(files: Files, req: Message, peer: Peer, faults: Faults): (r: Reply)
    ensures var count := CheckNumRecords(files.data, RecordBytes, faults.count).value;
      (req.arg > count || req.arg < 0) ==> r == Reply(UpdateRejected, files, Bracket(Shared), [])
    ensures var count := CheckNumRecords(files.data, RecordBytes, faults.count).value;
      !(req.arg > count || req.arg < 0) ==>
        var a := UpdateAccepted(AsWritten, files, req, peer, faults);
        r == a.(dataLocks := Bracket(Shared) + a.dataLocks)
  {
    var counted := CheckNumRecords(files.data, RecordBytes, faults.count);
    if req.arg > counted.value || req.arg < 0 then Reply(UpdateRejected, files, counted.locks, [])
    else
      var a := UpdateAccepted(AsWritten, files, req, peer, faults);
      a.(dataLocks := counted.locks + a.dataLocks)
  }

  /**
   updateReply with the range check the client applies, so that only
   existing records can be updated, and every lock released.
   */
  function UpdateReply(files: Files, req: Message, peer: Peer, faults: Faults): (r: Reply)
    ensures r.sent.action == UpdateAction
    ensures !(faults.count.seekOk && 0 <= req.arg < |files.data|) ==> r == Reply(UpdateRejected, files, Bracket(Shared), [])
    ensures |r.files.data| == |files.data|
    ensures forall j :: 0 <= j < |files.data| && j != req.arg ==> r.files.data[j] == files.data[j]
    ensures faults.count.seekOk && 0 <= req.arg < |files.data| && Succeeds(faults.access) ==>
              r.files.data[req.arg] == req.record && r.sent.arg == req.arg
    ensures faults.count.seekOk && 0 <= req.arg < |files.data| && Succeeds(faults.access) && Succeeds(faults.readBack) ==>
              r.sent == Message(UpdateAction, req.arg, req.record)
    ensures faults.count.seekOk && 0 <= req.arg < |files.data| && !Succeeds(faults.access) ==>
              r.files.data == files.data && r.sent == Message(UpdateAction, -1, ZeroRecord)
    ensures faults.count.seekOk && 0 <= req.arg < |files.data| ==>
              LoggedAs(Corrected, files, r, peer, UpdateAction, r.sent.arg, faults.log)
    ensures Balanced(r.dataLocks) && Balanced(r.logLocks)
  {
    var counted := CheckNumRecords(files.data, RecordBytes, faults.count);
    BracketBalanced(Shared);
    if req.arg >= counted.value || req.arg < 0 then Reply(UpdateRejected, files, counted.locks, [])
    else
      var a := UpdateAccepted(Corrected, files, req, peer, faults);
      BalancedConcat(counted.locks, a.dataLocks);
      a.(dataLocks := counted.locks + a.dataLocks)
  }

  // ---------------------------------------------------------------------------
  // logReply
  // ---------------------------------------------------------------------------

  /**
   The kernel's answers to the seek and the read of log entry i: as `logIo`
   gives them, and healthy for an index it does not mention.
   */
  function EntryIo(logIo: map<int, Io>, i: int): Io {
    if i in logIo then logIo[i] else Healthy
  }

  /** Log entry i reads successfully: both its seek and its read work. */
  predicate Readable(logIo: map<int, Io>, i: int) {
    Succeeds(EntryIo(logIo, i))
  }

  /**
   The "more coming" messages for log entries 0 .. n-1: one per entry that
   reads successfully, in index order.
   */
  function Streamed(log: seq<LogEntry>, n: nat, logIo: map<int, Io>): (msgs: seq<LogMessage>)
    requires n <= |log|
    ensures |msgs| <= n
    ensures forall k :: 0 <= k < |msgs| ==> msgs[k].arg == 1
  {
    if n == 0 then []
    else
      var earlier := Streamed(log, n - 1, logIo);
      match ReadRecord(log, n - 1, LogEntryBytes, EntryIo(logIo, n - 1)).value
      case None => earlier
      case Some(e) => earlier + [LogMessage(1, e)]
  }

  /** The read of entry i inside the log yields it exactly when the entry is readable. */
  lemma EntryRead(log: seq<LogEntry>, i: nat, logIo: map<int, Io>)
    requires i < |log|
    ensures ReadRecord(log, i, LogEntryBytes, EntryIo(logIo, i)).value == if Readable(logIo, i) then Some(log[i]) else None
  {
  }

  /** Every streamed message carries an entry of the log that read successfully. */
  lemma {:induction false} StreamedSound(log: seq<LogEntry>, n: nat, logIo: map<int, Io>)
    requires n <= |log|
    ensures forall k :: 0 <= k < |Streamed(log, n, logIo)| ==>
              exists j :: 0 <= j < n && Readable(logIo, j) && Streamed(log, n, logIo)[k].entry == log[j]
  {
    if n > 0 {
      var msgs, earlier := Streamed(log, n, logIo), Streamed(log, n - 1, logIo);
      StreamedSound(log, n - 1, logIo);
      EntryRead(log, n - 1, logIo);
      forall k | 0 <= k < |msgs|
        ensures exists j :: 0 <= j < n && Readable(logIo, j) && msgs[k].entry == log[j]
      {
        if k < |earlier| {
          var j :| 0 <= j < n - 1 && Readable(logIo, j) && earlier[k].entry == log[j];
          assert msgs[k] == earlier[k];
        } else {
          assert msgs[k].entry == log[n - 1];
        }
      }
      assert msgs == Streamed(log, n, logIo);
    } else {
      assert |Streamed(log, n, logIo)| == 0;
    }
  }

  /** Every entry that reads successfully is streamed. */
  lemma {:induction false} StreamedComplete(log: seq<LogEntry>, n: nat, logIo: map<int, Io>)
    requires n <= |log|
    ensures forall j :: 0 <= j < n && Readable(logIo, j) ==> LogMessage(1, log[j]) in Streamed(log, n, logIo)
  {
    if n > 0 {
      var msgs, earlier := Streamed(log, n, logIo), Streamed(log, n - 1, logIo);
      StreamedComplete(log, n - 1, logIo);
      assert msgs[..|earlier|] == earlier;
      forall j | 0 <= j < n && Readable(logIo, j)
        ensures LogMessage(1, log[j]) in msgs
      {
        if j < n - 1 {
          var k :| 0 <= k < |earlier| && earlier[k] == LogMessage(1, log[j]);
          assert msgs[k] == earlier[k];
        }
      }
    }
  }

  /** The indices below n whose log entry reads successfully. */
  function ReadableIndices(n: nat, logIo: map<int, Io>): set<int> {
    set j | 0 <= j < n && Readable(logIo, j)
  }

  /** The stream holds one message per entry that reads successfully, and no more. */
  lemma {:induction false} StreamedCount(log: seq<LogEntry>, n: nat, logIo: map<int, Io>)
    requires n <= |log|
    ensures |Streamed(log, n, logIo)| == |ReadableIndices(n, logIo)|
  {
    if n > 0 {
      StreamedCount(log, n - 1, logIo);
      var below := ReadableIndices(n - 1, logIo);
      assert n - 1 !in below;
      if !Readable(logIo, n - 1) {
        assert ReadableIndices(n, logIo) == below;
      } else {
        assert ReadableIndices(n, logIo) == below + {n - 1};
      }
    } else {
      assert ReadableIndices(n, logIo) == {};
    }
  }

  /** With no failed read, the stream is the first n log entries in order. */
  lemma {:induction false} StreamedWhole(log: seq<LogEntry>, n: nat, logIo: map<int, Io>)
    requires n <= |log|
    ensures (forall j :: 0 <= j < n ==> Readable(logIo, j)) ==>
              |Streamed(log, n, logIo)| == n
              && forall j :: 0 <= j < n ==> Streamed(log, n, logIo)[j] == LogMessage(1, log[j])
  {
    if n > 0 && forall j :: 0 <= j < n ==> Readable(logIo, j) {
      var msgs, earlier := Streamed(log, n, logIo), Streamed(log, n - 1, logIo);
      StreamedWhole(log, n - 1, logIo);
      EntryRead(log, n - 1, logIo);
      assert msgs == earlier + [LogMessage(1, log[n - 1])];
    }
  }

  /**
   The Log_Message buffer after the loop: the last iteration zeroes it and
   reads entry count-1 into it. With no iteration it was never written, so it
   holds whatever `stale` says.
   */
  function FinalBuffer(log: seq<LogEntry>, count: int, logIo: map<int, Io>, stale: LogEntry): (e: LogEntry)
    requires count <= |log|
    ensures count <= 0 ==> e == stale
    ensures count > 0 && Readable(logIo, count - 1) ==> e == log[count - 1]
    ensures count > 0 && !Readable(logIo, count - 1) ==> e == ZeroEntry
  {
    if count <= 0 then stale
    else ReadRecord(log, count - 1, LogEntryBytes, EntryIo(logIo, count - 1)).value.GetOr(ZeroEntry)
  }

  /**
   logReply: stream every log entry that reads successfully with arg 1, then
   one message with arg 0. It sends no Record_Message and logs nothing.
   */
  function LogReply(log: seq<LogEntry>, countIo: Io, logIo: map<int, Io>, stale: LogEntry): (msgs: seq<LogMessage>)
    ensures |msgs| >= 1 && msgs[|msgs| - 1].arg == 0
    ensures forall k :: 0 <= k < |msgs| - 1 ==> msgs[k].arg == 1
    ensures !countIo.seekOk ==> msgs == [LogMessage(0, stale)]
    ensures countIo.seekOk ==>
              forall j :: 0 <= j < |log| && Readable(logIo, j) ==> LogMessage(1, log[j]) in msgs
    ensures countIo.seekOk ==>
              forall k :: 0 <= k < |msgs| - 1 ==> FromReadableEntry(log, logIo, msgs[k].entry)
    ensures countIo.seekOk ==> |msgs| == |ReadableIndices(|log|, logIo)| + 1
    ensures countIo.seekOk ==> msgs[|msgs| - 1].entry == FinalBuffer(log, |log|, logIo, stale)
    ensures countIo.seekOk && (forall j :: 0 <= j < |log| ==> Readable(logIo, j)) ==>
              |msgs| == |log| + 1 && forall j :: 0 <= j < |log| ==> msgs[j] == LogMessage(1, log[j])
  {
    var count := CheckNumRecords(log, LogEntryBytes, countIo).value;
    if count <= 0 then [LogMessage(0, FinalBuffer(log, count, logIo, stale))]
    else
      StreamThenStop(log, logIo, FinalBuffer(log, count, logIo, stale));
      Streamed(log, count, logIo) + [LogMessage(0, FinalBuffer(log, count, logIo, stale))]
  }

  /** Entry e is what some log entry that reads successfully holds. */
  predicate FromReadableEntry(log: seq<LogEntry>, logIo: map<int, Io>, e: LogEntry)
  {
    exists j :: 0 <= j < |log| && Readable(logIo, j) && e == log[j]
  }

  /** The whole log streamed and then one terminator, whatever its entry: what each message carries and how many there are. */
  lemma StreamThenStop(log: seq<LogEntry>, logIo: map<int, Io>, last: LogEntry)
    ensures var msgs := Streamed(log, |log|, logIo) + [LogMessage(0, last)];
      && (forall k :: 0 <= k < |msgs| - 1 ==> msgs[k].arg == 1)
      && (forall j :: 0 <= j < |log| && Readable(logIo, j) ==> LogMessage(1, log[j]) in msgs)
      && (forall k :: 0 <= k < |msgs| - 1 ==> FromReadableEntry(log, logIo, msgs[k].entry))
      && |msgs| == |ReadableIndices(|log|, logIo)| + 1
      && ((forall j :: 0 <= j < |log| ==> Readable(logIo, j)) ==>
            |msgs| == |log| + 1 && forall j :: 0 <= j < |log| ==> msgs[j] == LogMessage(1, log[j]))
  {
    StreamThenStopSound(log, logIo, last);
    StreamThenStopComplete(log, logIo, last);
  }

  /** Before the terminator, every message carries an entry that read successfully. */
  lemma StreamThenStopSound(log: seq<LogEntry>, logIo: map<int, Io>, last: LogEntry)
    ensures var msgs := Streamed(log, |log|, logIo) + [LogMessage(0, last)];
      && (forall k :: 0 <= k < |msgs| - 1 ==> msgs[k].arg == 1)
      && (forall k :: 0 <= k < |msgs| - 1 ==> FromReadableEntry(log, logIo, msgs[k].entry))
  {
    var more := Streamed(log, |log|, logIo);
    var msgs := more + [LogMessage(0, last)];
    StreamedSound(log, |log|, logIo);
    forall k | 0 <= k < |msgs| - 1
      ensures msgs[k].arg == 1 && FromReadableEntry(log, logIo, msgs[k].entry)
    {
      assert msgs[k] == more[k];
      var j :| 0 <= j < |log| && Readable(logIo, j) && more[k].entry == log[j];
      assert msgs[k].entry == log[j];
    }
  }

  /** Every entry that reads successfully comes before the terminator, one message each, in order when none fails. */
  lemma StreamThenStopComplete(log: seq<LogEntry>, logIo: map<int, Io>, last: LogEntry)
    ensures var msgs := Streamed(log, |log|, logIo) + [LogMessage(0, last)];
      && (forall j :: 0 <= j < |log| && Readable(logIo, j) ==> LogMessage(1, log[j]) in msgs)
      && |msgs| == |ReadableIndices(|log|, logIo)| + 1
      && ((forall j :: 0 <= j < |log| ==> Readable(logIo, j)) ==>
            |msgs| == |log| + 1 && forall j :: 0 <= j < |log| ==> msgs[j] == LogMessage(1, log[j]))
  {
    var more := Streamed(log, |log|, logIo);
    var msgs := more + [LogMessage(0, last)];
    StreamedComplete(log, |log|, logIo);
    StreamedWhole(log, |log|, logIo);
    StreamedCount(log, |log|, logIo);
    assert forall k :: 0 <= k < |more| ==> msgs[k] == more[k];
  }



  // ---------------------------------------------------------------------------
  // messageSwitch and the session
  // ---------------------------------------------------------------------------

  /** The packets sent for one request, the files afterwards, and its lock calls on the two groups. */
  datatype Switched = Switched(sent: seq<Packet>, files: Files, dataLocks: seq<LockOp>, logLocks: seq<LockOp>)

  /** The actions that write one log entry when they complete. */
  predicate LoggedAction(action: int) {
    action == CountAction || action == ReadAction || action == UpdateAction || action == CreateAction
  }

  function LogPackets(msgs: seq<LogMessage>): (ps: seq<Packet>)
    ensures |ps| == |msgs|
    ensures forall k :: 0 <= k < |ps| ==> ps[k] == LogPacket(msgs[k])
  {
    if msgs == [] then [] else [LogPacket(msgs[0])] + LogPackets(msgs[1..])
  }

  /**
   The lock calls of logReply's reads of entries 0 .. n-1. The indices are
   never negative, so each read is a complete reader critical section unless
   the program is as written and that entry's seek fails, which leaves one
   reader lock taken for good.
   */
  function StreamLocks(v: Version, log: seq<LogEntry>, n: nat, logIo: map<int, Io>): (ops: seq<LockOp>)
    requires n <= |log|
    ensures Held(ops) >= 0
    ensures Balanced(ops) <==> Held(ops) == 0
    ensures Balanced(ops) <==> v == Corrected || forall j :: 0 <= j < n ==> EntryIo(logIo, j).seekOk
  {
    if n == 0 then []
    else
      var earlier := StreamLocks(v, log, n - 1, logIo);
      var read := ReadRecordIn(v, log, n - 1, LogEntryBytes, EntryIo(logIo, n - 1)).locks;
      BalancedConcat(earlier, read);
      HeldConcat(earlier, read);
      BalancedHeldNone(read);
      BalancedHeldNone(earlier + read);
      assert !Balanced(read) ==> Held(read) == 1 by {
        assert [Lock(Shared)][1..] == [];
      }
      earlier + read
  }

  function FromReply(rep: Reply): Switched {
    Switched([RecordPacket(rep.sent)], rep.files, rep.dataLocks, rep.logLocks)
  }

  /**
   A log request: the stream of logReply, and its lock calls on the log, the
   count's and then each entry read's. Neither file changes.
   */
  function LogSwitch(v: Version, files: Files, countIo: Io, logIo: map<int, Io>, stale: LogEntry): (r: Switched)
    ensures r.files == files && r.dataLocks == []
    ensures forall k :: 0 <= k < |r.sent| ==> r.sent[k].LogPacket?
  {
    var counted := CheckNumRecords(files.log, LogEntryBytes, countIo);
    var streamed := StreamLocks(v, files.log, if counted.value > 0 then counted.value else 0, logIo);
    Switched(LogPackets(LogReply(files.log, countIo, logIo, stale)), files, [], counted.locks + streamed)
  }

  /**
   messageSwitch: route the request by its action code. Every action but 5
   sends exactly one Record_Message; an unknown action sends the request back
   as it came. Action 5 sends only the log stream; for it, `faults.count`
   is the answer to the log's record count and `logIo` gives the answers
   to the seek and the read of each log entry. An update goes to the range check of the
   version that runs.
   */
  function MessageSwitch(v: Version, files: Files, req: Message, peer: Peer, faults: Faults, logIo: map<int, Io>, stale: LogEntry): (r: Switched)
    ensures req.action != LogAction ==> |r.sent| == 1 && r.sent[0].RecordPacket? && r.sent[0].message.action == req.action
    ensures req.action == LogAction ==> forall k :: 0 <= k < |r.sent| ==> r.sent[k].LogPacket?
    ensures req.action == LogAction || !LoggedAction(req.action) ==> r.files == files
    ensures !LoggedAction(req.action) && req.action != LogAction ==> r.sent == [RecordPacket(req)]
    ensures req.action != UpdateAction && req.action != CreateAction ==> r.files.data == files.data
    ensures |r.files.log| >= |files.log| && r.files.log[..|files.log|] == files.log
  {
    match req.action
    case 1 => FromReply(CountReply(v, files, peer, faults))
    case 2 => FromReply(ReadReply(v, files, req, peer, faults))
    case 3 => FromReply(if v == AsWritten then UpdateReplyAsWritten(files, req, peer, faults) else UpdateReply(files, req, peer, faults))
    case 4 => FromReply(CreateReply(v, files, req, peer, faults))
    case 5 => LogSwitch(v, files, faults.count, logIo, stale)
    case _ => Switched([RecordPacket(req)], files, [], [])
  }

  /**
   The lock calls of one request: the corrected server completes every
   critical section it opens; as written, a read at a negative index or a
   failed seek leaves a lock taken, on the data file or on the log, and a
   log request leaves one on the log for each entry whose seek fails.
   */
  lemma SwitchLocks(v: Version, files: Files, req: Message, peer: Peer, faults: Faults, logIo: map<int, Io>, stale: LogEntry)
    ensures var r := MessageSwitch(v, files, req, peer, faults, logIo, stale);
      && (v == Corrected ==> Balanced(r.dataLocks) && Balanced(r.logLocks))
      && (faults.log.seekOk && req.action != LogAction ==> Balanced(r.logLocks))
      && (req.action == LogAction ==>
            (Balanced(r.logLocks) <==> v == Corrected || !faults.count.seekOk || forall j :: 0 <= j < |files.log| ==> EntryIo(logIo, j).seekOk))
      && (v == AsWritten && !faults.log.seekOk && (req.action == CountAction || req.action == ReadAction || req.action == CreateAction) ==>
            r.logLocks == [Lock(Exclusive)])
      && (v == AsWritten && req.action == ReadAction && !(faults.access.seekOk && req.arg >= 0) ==> r.dataLocks == [Lock(Shared)])
  {
    BracketBalanced(Shared);
    if req.action == LogAction {
      var counted := CheckNumRecords(files.log, LogEntryBytes, faults.count);
      assert MessageSwitch(v, files, req, peer, faults, logIo, stale) == LogSwitch(v, files, faults.count, logIo, stale);
      BalancedConcat(counted.locks, StreamLocks(v, files.log, if counted.value > 0 then counted.value else 0, logIo));
    }
  }

  /** The server's two SemaphoreSet objects: group 0 of its set guards the data file, group 1 the log. */
  function DataGroup(semid: int): Group {
    Group(semid, 0)
  }

  function LogGroup(semid: int): Group {
    Group(semid, 1)
  }

  predicate HasServerGroups(sems: Bank, semid: int) {
    HasGroup(sems, DataGroup(semid)) && HasGroup(sems, LogGroup(semid))
  }

  /**
   Makes one request's lock calls on the server's set: those on the data
   file, then those on the log, which is the order every reply makes them
   in. None when a call would wait for a lock that no process will release.
   */
  function Synchronise(sems: Bank, semid: int, sw: Switched): (r: Option<Bank>)
    requires HasServerGroups(sems, semid)
    ensures r.Some? ==> HasServerGroups(r.value, semid)
    ensures r.Some? ==> r.value.Keys == sems.Keys
  {
    match ApplyAll(sems, DataGroup(semid), sw.dataLocks)
    case None => None
    case Some(b1) => ApplyAll(b1, LogGroup(semid), sw.logLocks)
  }

  /**
   What a run of requests leaves: the packets sent, the files, the server's
   semaphore set, and whether the process got stuck waiting for a lock.
   */
  datatype Served = Served(sent: seq<Packet>, files: Files, sems: Bank, blocked: bool)

  /**
   The requests answered in order, every store call's I/O healthy. A request
   whose lock calls would wait for good stops the run: it and the requests
   after it take no effect.
   */
  function Serve(v: Version, files: Files, sems: Bank, semid: int, peer: Peer, reqs: seq<Message>, stale: LogEntry): (r: Served)
    requires HasServerGroups(sems, semid)
    ensures HasServerGroups(r.sems, semid)
    ensures reqs == [] ==> r == Served([], files, sems, false)
    decreases |reqs|
  {
    if reqs == [] then Served([], files, sems, false)
    else
      var first := MessageSwitch(v, files, reqs[0], peer, NoFaults, map[], stale);
      match Synchronise(sems, semid, first)
      case None => Served([], files, sems, true)
      case Some(sems1) =>
        var rest := Serve(v, first.files, sems1, semid, peer, reqs[1..], stale);
        Served(first.sent + rest.sent, rest.files, rest.sems, rest.blocked)
  }

  /**
   Serving only appends to the log, and requests other than updates and
   creates leave the data file as it was.
   */
  lemma {:induction false} ServeOnlyAppendsToLog(v: Version, files: Files, sems: Bank, semid: int, peer: Peer, reqs: seq<Message>, stale: LogEntry)
    requires HasServerGroups(sems, semid)
    ensures var r := Serve(v, files, sems, semid, peer, reqs, stale);
      |r.files.log| >= |files.log| && r.files.log[..|files.log|] == files.log
    ensures (forall k :: 0 <= k < |reqs| ==> reqs[k].action != UpdateAction && reqs[k].action != CreateAction) ==>
              Serve(v, files, sems, semid, peer, reqs, stale).files.data == files.data
    decreases |reqs|
  {
    if reqs != [] {
      var first := MessageSwitch(v, files, reqs[0], peer, NoFaults, map[], stale);
      match Synchronise(sems, semid, first)
      case None =>
      case Some(sems1) =>
        ServeOnlyAppendsToLog(v, first.files, sems1, semid, peer, reqs[1..], stale);
        var rest := Serve(v, first.files, sems1, semid, peer, reqs[1..], stale);
        assert rest.files.log[..|files.log|] == first.files.log[..|files.log|];
    }
  }

  /**
   run: log the connection, answer the requests, and log the disconnection;
   the log only grows, and a session that is not left waiting for a lock
   opens its entries with a connect and closes them with a disconnect.
   */
  function Session(v: Version, files: Files, sems: Bank, semid: int, peer: Peer, reqs: seq<Message>, stale: LogEntry): (r: Served)
    requires HasServerGroups(sems, semid)
    ensures |r.files.log| >= |files.log| && r.files.log[..|files.log|] == files.log
    ensures !r.blocked ==> |r.files.log| >= |files.log| + 2
    ensures !r.blocked ==> r.files.log[|files.log|] == LogEntry(peer, ConnectAction, 0)
    ensures !r.blocked ==> r.files.log[|r.files.log| - 1] == LogEntry(peer, DisconnectAction, 0)
  {
    var connect := WriteLog(v, files.log, peer, ConnectAction, 0, Healthy);
    match ApplyAll(sems, LogGroup(semid), connect.locks)
    case None => Served([], files, sems, true)
    case Some(sems1) =>
      var connected := files.(log := connect.file);
      var served := Serve(v, connected, sems1, semid, peer, reqs, stale);
      ServeOnlyAppendsToLog(v, connected, sems1, semid, peer, reqs, stale);
      assert served.files.log[..|files.log|] == connected.log[..|files.log|];
      assert served.files.log[|files.log|] == connected.log[|files.log|];
      if served.blocked then served
      else
        var disconnect := WriteLog(v, served.files.log, peer, DisconnectAction, 0, Healthy);
        match ApplyAll(served.sems, LogGroup(semid), disconnect.locks)
        case None => served.(blocked := true)
        case Some(sems2) => Served(served.sent, served.files.(log := disconnect.file), sems2, false)
  }

  // ---------------------------------------------------------------------------
  // Properties
  // ---------------------------------------------------------------------------

  /** Every record's month is its index in the data file, as createReply assigns them. */
  predicate MonthsAreIndices(data: seq<Record>) {
    forall j :: 0 <= j < |data| ==> data[j].month == j
  }

  /** A create with a working count and append keeps every month equal to its index. */
  lemma CreateKeepsMonthsAreIndices(v: Version, files: Files, req: Message, peer: Peer, faults: Faults)
    requires MonthsAreIndices(files.data) && faults.count.seekOk
    ensures MonthsAreIndices(CreateReply(v, files, req, peer, faults).files.data)
  {
  }

  /** The record a create reports can be read back at the index it reports. */
  lemma CreateThenRead(v: Version, files: Files, req: Message, peer: Peer, readReq: Message)
    requires readReq.arg == |files.data|
    ensures var c := CreateReply(v, files, req, peer, NoFaults);
      && c.sent.arg == |files.data|
      && ReadReply(v, c.files, readReq, peer, NoFaults).sent == Message(ReadAction, c.sent.arg, c.sent.record)
      && c.sent.record == req.record.(month := |files.data|)
  {
  }

  /** After an accepted update, reading the same index returns the record sent, and the count is unchanged. */
  lemma UpdateThenRead(files: Files, req: Message, peer: Peer, readReq: Message)
    requires 0 <= req.arg < |files.data| && readReq.arg == req.arg
    ensures var u := UpdateReply(files, req, peer, NoFaults);
      && u.sent == Message(UpdateAction, req.arg, req.record)
      && ReadReply(Corrected, u.files, readReq, peer, NoFaults).sent == Message(ReadAction, req.arg, req.record)
      && CountReply(Corrected, u.files, peer, NoFaults).sent.arg == |files.data|
  {
  }

  /** An update that keeps the month of the record it replaces keeps every month equal to its index. */
  lemma UpdateKeepsMonthsAreIndices(files: Files, req: Message, peer: Peer, faults: Faults)
    requires MonthsAreIndices(files.data) && req.record.month == req.arg
    ensures MonthsAreIndices(UpdateReply(files, req, peer, faults).files.data)
  {
  }

  /**
   As written, updateReply accepts recNum == count: the "update" of a record
   that does not exist appends the client's record unchanged, month
   included, so the file grows and a month no longer matches its index. The
   corrected range check rejects it and changes nothing.
   */
  lemma UpdateAtCountAppends(files: Files, req: Message, peer: Peer)
    requires req.arg == |files.data|
    ensures var w := UpdateReplyAsWritten(files, req, peer, NoFaults);
      && w.sent == Message(UpdateAction, |files.data|, req.record)
      && w.files.data == files.data + [req.record]
    ensures UpdateReply(files, req, peer, NoFaults) == Reply(UpdateRejected, files, Bracket(Shared), [])
  {
    var w := UpdateReplyAsWritten(files, req, peer, NoFaults);
    assert w.files.data == Overwrite(files.data, req.arg, req.record, ZeroRecord);
  }

  /** On an empty data file, an update of record 0 with month 7 creates a record whose month is not its index. */
  lemma UpdateOfEmptyFileBreaksMonths(peer: Peer)
    ensures var req := Message(UpdateAction, 0, Record(7, Shares(0, 0, 0, 0)));
      && var w := UpdateReplyAsWritten(Files([], []), req, peer, NoFaults);
      && w.sent.arg == 0
      && |w.files.data| == 1
      && !MonthsAreIndices(w.files.data)
      && UpdateReply(Files([], []), req, peer, NoFaults).sent.arg == -1
  {
    var req := Message(UpdateAction, 0, Record(7, Shares(0, 0, 0, 0)));
    UpdateAtCountAppends(Files([], []), req, peer);
  }

  /**
   For existing records the as-written and the corrected update send the
   same reply and leave the same files; their lock calls differ only where
   the as-written store leaves a lock taken.
   */
  lemma UpdateRepliesAgreeBelowCount(files: Files, req: Message, peer: Peer, faults: Faults)
    requires req.arg != |files.data| || !faults.count.seekOk
    ensures var w, c := UpdateReplyAsWritten(files, req, peer, faults), UpdateReply(files, req, peer, faults);
      && w.sent == c.sent && w.files == c.files
      && (faults.readBack.seekOk && faults.log.seekOk ==> w == c)
  {
  }

  /**
   With a healthy log append, every count, read and create request writes
   exactly one log entry, with its action code and the reply's arg; an
   update does so unless its range check rejects it, and then writes none.
   The as-written check rejects only recNum > count, so an update at the
   count gets through and appends; the corrected one rejects it.
   */
  lemma EachRequestLogsOnce(v: Version, files: Files, req: Message, peer: Peer, faults: Faults, logIo: map<int, Io>, stale: LogEntry)
    requires Succeeds(faults.log) && LoggedAction(req.action)
    ensures var r := MessageSwitch(v, files, req, peer, faults, logIo, stale);
      r.sent[0].RecordPacket? &&
      if req.action == UpdateAction && r.sent[0].message == UpdateRejected && r.files == files
      then r.files.log == files.log
      else r.files.log == files.log + [LogEntry(peer, req.action, r.sent[0].message.arg)]
    ensures req.action == UpdateAction && (req.arg < 0 || req.arg > |files.data| || !faults.count.seekOk) ==>
              MessageSwitch(v, files, req, peer, faults, logIo, stale).files == files
    ensures v == Corrected && req.action == UpdateAction && req.arg == |files.data| ==>
              MessageSwitch(v, files, req, peer, faults, logIo, stale).files == files
    ensures v == AsWritten && req.action == UpdateAction && req.arg == |files.data| && faults.count.seekOk && Succeeds(faults.access) ==>
              var r := MessageSwitch(v, files, req, peer, faults, logIo, stale);
              && r.files.data == files.data + [req.record]
              && r.files.log == files.log + [LogEntry(peer, UpdateAction, req.arg)]
  {
    if v == AsWritten && req.action == UpdateAction && req.arg == |files.data| && faults.count.seekOk && Succeeds(faults.access) {
      var r := MessageSwitch(v, files, req, peer, faults, logIo, stale);
      assert r.files.data == Overwrite(files.data, req.arg, req.record, ZeroRecord);
    }
  }

  /**
   The corrected server never waits for good: from a set whose two groups
   are unlocked, every request releases what it takes, so the run completes
   and leaves the semaphores as it found them.
   */
  lemma {:induction false} CorrectedServeNeverBlocks(files: Files, sems: Bank, semid: int, peer: Peer, reqs: seq<Message>, stale: LogEntry)
    requires HasServerGroups(sems, semid)
    requires View(sems, DataGroup(semid)) == Unlocked && View(sems, LogGroup(semid)) == Unlocked
    ensures var r := Serve(Corrected, files, sems, semid, peer, reqs, stale);
      !r.blocked && r.sems == sems
    decreases |reqs|
  {
    if reqs != [] {
      var first := MessageSwitch(Corrected, files, reqs[0], peer, NoFaults, map[], stale);
      CorrectedStepRestores(files, sems, semid, peer, reqs[0], stale);
      CorrectedServeNeverBlocks(first.files, sems, semid, peer, reqs[1..], stale);
    }
  }

  /** Hence a corrected session always ends with its disconnect logged, and the semaphores as they were. */
  lemma CorrectedSessionCompletes(files: Files, sems: Bank, semid: int, peer: Peer, reqs: seq<Message>, stale: LogEntry)
    requires HasServerGroups(sems, semid)
    requires View(sems, DataGroup(semid)) == Unlocked && View(sems, LogGroup(semid)) == Unlocked
    ensures var r := Session(Corrected, files, sems, semid, peer, reqs, stale);
      && !r.blocked && r.sems == sems
      && r.files.log[|files.log|] == LogEntry(peer, ConnectAction, 0)
      && r.files.log[|r.files.log| - 1] == LogEntry(peer, DisconnectAction, 0)
  {
    var connect := WriteLog(Corrected, files.log, peer, ConnectAction, 0, Healthy);
    BalancedRestores(sems, LogGroup(semid), connect.locks);
    CorrectedServeNeverBlocks(files.(log := connect.file), sems, semid, peer, reqs, stale);
    var served := Serve(Corrected, files.(log := connect.file), sems, semid, peer, reqs, stale);
    BalancedRestores(sems, LogGroup(semid), WriteLog(Corrected, served.files.log, peer, DisconnectAction, 0, Healthy).locks);
  }

  /**
   As written, a client that reads record -1 and then creates a record stops
   the server process for good: the read leaves the data file's reader lock
   taken, and the create's append waits on the write semaphore that only
   the last reader out would release. The corrected server answers both.
   */
  lemma ReadOfMinusOneBlocksCreate(files: Files, sems: Bank, semid: int, peer: Peer, rec: Record, stale: LogEntry)
    requires HasServerGroups(sems, semid)
    requires View(sems, DataGroup(semid)) == Unlocked && View(sems, LogGroup(semid)) == Unlocked
    ensures var reqs := [Message(ReadAction, -1, rec), Message(CreateAction, 0, rec)];
      var w := Serve(AsWritten, files, sems, semid, peer, reqs, stale);
      && w.blocked
      && w.sent == [RecordPacket(Message(ReadAction, -1, ZeroRecord))]
      && w.files.data == files.data
      && View(w.sems, DataGroup(semid)) == Triple(1, 1, 0)
  {
    var reqs := [Message(ReadAction, -1, rec), Message(CreateAction, 0, rec)];
    var read := MessageSwitch(AsWritten, files, reqs[0], peer, NoFaults, map[], stale);
    var held := ReadLeavesReaderLock(files, sems, semid, peer, rec, stale);
    CreateWaitsForReader(read.files, held, semid, peer, rec, stale);
    assert reqs[1..] == [reqs[1]] && reqs[1..][1..] == [];
    var blocked := Serve(AsWritten, read.files, held, semid, peer, reqs[1..], stale);
    assert blocked == Served([], read.files, held, true);
  }

  /** The corrected server answers the same two requests, and the create appends. */
  lemma CorrectedReadThenCreate(files: Files, sems: Bank, semid: int, peer: Peer, rec: Record, stale: LogEntry)
    requires HasServerGroups(sems, semid)
    requires View(sems, DataGroup(semid)) == Unlocked && View(sems, LogGroup(semid)) == Unlocked
    ensures var reqs := [Message(ReadAction, -1, rec), Message(CreateAction, 0, rec)];
      var c := Serve(Corrected, files, sems, semid, peer, reqs, stale);
      && !c.blocked
      && c.files.data == files.data + [rec.(month := |files.data|)]
  {
    var readReq, createReq := Message(ReadAction, -1, rec), Message(CreateAction, 0, rec);
    CorrectedServeTwo(files, sems, semid, peer, readReq, createReq, stale);
    var read := MessageSwitch(Corrected, files, readReq, peer, NoFaults, map[], stale);
    assert read.files.data == files.data;
    CorrectedCreateAppends(read.files, peer, rec, stale);
  }

  /** A corrected create with healthy I/O appends the record numbered by the old count. */
  lemma CorrectedCreateAppends(files: Files, peer: Peer, rec: Record, stale: LogEntry)
    ensures MessageSwitch(Corrected, files, Message(CreateAction, 0, rec), peer, NoFaults, map[], stale).files.data
      == files.data + [rec.(month := |files.data|)]
  {
    var created := CreateReply(Corrected, files, Message(CreateAction, 0, rec), peer, NoFaults);
    assert created.files.data == files.data + [rec.(month := |files.data|)];
  }

  /** Two corrected requests in a row on an unlocked set: neither blocks, and the second sees the first's files. */
  lemma CorrectedServeTwo(files: Files, sems: Bank, semid: int, peer: Peer, a: Message, b: Message, stale: LogEntry)
    requires HasServerGroups(sems, semid)
    requires View(sems, DataGroup(semid)) == Unlocked && View(sems, LogGroup(semid)) == Unlocked
    ensures var first := MessageSwitch(Corrected, files, a, peer, NoFaults, map[], stale);
      var c := Serve(Corrected, files, sems, semid, peer, [a, b], stale);
      && !c.blocked
      && c.files == MessageSwitch(Corrected, first.files, b, peer, NoFaults, map[], stale).files
  {
    var first := MessageSwitch(Corrected, files, a, peer, NoFaults, map[], stale);
    CorrectedServeFirst(files, sems, semid, peer, a, [b], stale);
    CorrectedServeFirst(first.files, sems, semid, peer, b, [], stale);
    assert [b] + [] == [b] && [a] + [b] == [a, b];
  }

  /** On an unlocked set, the corrected server serves the rest of the requests from where the first left the files. */
  lemma CorrectedServeFirst(files: Files, sems: Bank, semid: int, peer: Peer, req: Message, reqs: seq<Message>, stale: LogEntry)
    requires HasServerGroups(sems, semid)
    requires View(sems, DataGroup(semid)) == Unlocked && View(sems, LogGroup(semid)) == Unlocked
    ensures var first := MessageSwitch(Corrected, files, req, peer, NoFaults, map[], stale);
      var rest := Serve(Corrected, first.files, sems, semid, peer, reqs, stale);
      Serve(Corrected, files, sems, semid, peer, [req] + reqs, stale) == Served(first.sent + rest.sent, rest.files, rest.sems, rest.blocked)
  {
    CorrectedStepRestores(files, sems, semid, peer, req, stale);
    ServeFirst(Corrected, files, sems, semid, peer, req, reqs, stale);
  }

  /** Serving a first request whose lock calls get through, then the rest from where it left the files and the set. */
  lemma ServeFirst(v: Version, files: Files, sems: Bank, semid: int, peer: Peer, req: Message, reqs: seq<Message>, stale: LogEntry)
    requires HasServerGroups(sems, semid)
    requires Synchronise(sems, semid, MessageSwitch(v, files, req, peer, NoFaults, map[], stale)).Some?
    ensures var first := MessageSwitch(v, files, req, peer, NoFaults, map[], stale);
      var rest := Serve(v, first.files, Synchronise(sems, semid, first).value, semid, peer, reqs, stale);
      Serve(v, files, sems, semid, peer, [req] + reqs, stale) == Served(first.sent + rest.sent, rest.files, rest.sems, rest.blocked)
  {
    assert ([req] + reqs)[0] == req && ([req] + reqs)[1..] == reqs;
  }

  /** One corrected request's lock calls get through an unlocked set and leave it as it was. */
  lemma CorrectedStepRestores(files: Files, sems: Bank, semid: int, peer: Peer, req: Message, stale: LogEntry)
    requires HasServerGroups(sems, semid)
    requires View(sems, DataGroup(semid)) == Unlocked && View(sems, LogGroup(semid)) == Unlocked
    ensures Synchronise(sems, semid, MessageSwitch(Corrected, files, req, peer, NoFaults, map[], stale)) == Some(sems)
  {
    var r := MessageSwitch(Corrected, files, req, peer, NoFaults, map[], stale);
    SwitchLocks(Corrected, files, req, peer, NoFaults, map[], stale);
    BalancedRestores(sems, DataGroup(semid), r.dataLocks);
    BalancedRestores(sems, LogGroup(semid), r.logLocks);
  }

  /** As written, reading record -1 answers -1 and leaves one reader counted in the data file's group. */
  lemma ReadLeavesReaderLock(files: Files, sems: Bank, semid: int, peer: Peer, rec: Record, stale: LogEntry) returns (held: Bank)
    requires HasServerGroups(sems, semid)
    requires View(sems, DataGroup(semid)) == Unlocked && View(sems, LogGroup(semid)) == Unlocked
    ensures var read := MessageSwitch(AsWritten, files, Message(ReadAction, -1, rec), peer, NoFaults, map[], stale);
      && read.sent == [RecordPacket(Message(ReadAction, -1, ZeroRecord))]
      && read.files.data == files.data
      && Synchronise(sems, semid, read) == Some(held)
      && HasServerGroups(held, semid)
      && View(held, DataGroup(semid)) == Triple(1, 1, 0)
  {
    var g, lg := DataGroup(semid), LogGroup(semid);
    var read := MessageSwitch(AsWritten, files, Message(ReadAction, -1, rec), peer, NoFaults, map[], stale);
    SwitchLocks(AsWritten, files, Message(ReadAction, -1, rec), peer, NoFaults, map[], stale);
    assert read.dataLocks == [Lock(Shared)] && read.dataLocks[1..] == [];
    held := ApplyAll(sems, g, read.dataLocks).value;
    assert View(held, lg) == Unlocked by {
      SlotOwnership(lg, ReadCountMutex, Slot(lg, ReadCountMutex));
      SlotOwnership(lg, ReadCount, Slot(lg, ReadCount));
      SlotOwnership(lg, WriteSem, Slot(lg, WriteSem));
    }
    BalancedRestores(held, lg, read.logLocks);
  }

  /** As written, with a reader left counted, a create's count gets through and its append waits for good. */
  lemma CreateWaitsForReader(files: Files, held: Bank, semid: int, peer: Peer, rec: Record, stale: LogEntry)
    requires HasServerGroups(held, semid) && View(held, DataGroup(semid)) == Triple(1, 1, 0)
    ensures Synchronise(held, semid, MessageSwitch(AsWritten, files, Message(CreateAction, 0, rec), peer, NoFaults, map[], stale)).None?
  {
    var g := DataGroup(semid);
    var create := MessageSwitch(AsWritten, files, Message(CreateAction, 0, rec), peer, NoFaults, map[], stale);
    var rest := create.dataLocks[2..];
    assert create.dataLocks == Bracket(Shared) + rest && rest[0] == Lock(Exclusive);
    ReadStaysAvailable(held, g);
    assert ApplyAll(held, g, create.dataLocks) == ApplyAll(held, g, rest);
  }

  /**
   As written, a log request whose seek to entry 0 fails still sends its
   terminator, but leaves one reader counted in the log's group.
   */
  lemma LogSeekLeavesReaderLock(files: Files, sems: Bank, semid: int, peer: Peer, rec: Record, stale: LogEntry) returns (held: Bank)
    requires HasServerGroups(sems, semid)
    requires View(sems, DataGroup(semid)) == Unlocked && View(sems, LogGroup(semid)) == Unlocked
    requires |files.log| == 1
    ensures var sw := MessageSwitch(AsWritten, files, Message(LogAction, 0, rec), peer, NoFaults, map[0 := Io(false, true)], stale);
      && |sw.sent| == 1
      && Synchronise(sems, semid, sw) == Some(held)
      && HasServerGroups(held, semid)
      && View(held, DataGroup(semid)) == Unlocked
      && View(held, LogGroup(semid)) == Triple(1, 1, 0)
  {
    var sw := MessageSwitch(AsWritten, files, Message(LogAction, 0, rec), peer, NoFaults, map[0 := Io(false, true)], stale);
    LogSeekSwitch(files, rec, peer, stale);
    held := ReaderLeftInLog(sems, semid, sw);
  }

  /** Lock calls that leave the data file alone and take the log's reader lock once more than they release it leave one reader counted there. */
  lemma ReaderLeftInLog(sems: Bank, semid: int, sw: Switched) returns (held: Bank)
    requires HasServerGroups(sems, semid)
    requires View(sems, DataGroup(semid)) == Unlocked && View(sems, LogGroup(semid)) == Unlocked
    requires sw.dataLocks == [] && sw.logLocks == Bracket(Shared) + [Lock(Shared)]
    ensures Synchronise(sems, semid, sw) == Some(held)
    ensures HasServerGroups(held, semid)
    ensures View(held, DataGroup(semid)) == Unlocked && View(held, LogGroup(semid)) == Triple(1, 1, 0)
  {
    var g, lg := DataGroup(semid), LogGroup(semid);
    held := ReaderLeft(sems, lg);
    OtherGroupKept(sems, held, lg, g);
  }

  /** From an unlocked group, a bracketed read and then one more reader lock leave exactly that reader counted. */
  lemma ReaderLeft(b: Bank, g: Group) returns (held: Bank)
    requires HasGroup(b, g) && View(b, g) == Unlocked
    ensures ApplyAll(b, g, Bracket(Shared) + [Lock(Shared)]) == Some(held)
    ensures HasGroup(held, g) && OnlyGroupChanged(b, held, g) && View(held, g) == Triple(1, 1, 0)
  {
    BracketRestores(b, g, Shared);
    held := ReaderLock(b, g).value;
    assert ApplyAll(b, g, [Lock(Shared)]) == Some(held) by { assert [Lock(Shared)][1..] == []; }
    var ops := Bracket(Shared) + [Lock(Shared)];
    var b1 := ReaderLock(b, g).value;
    assert ops[1..][1..] == [Lock(Shared)];
    assert ApplyAll(b, g, ops) == ApplyAll(ReaderUnlock(b1, g).value, g, [Lock(Shared)]);
  }

  /** A change confined to group g leaves the view of another group h as it was. */
  lemma OtherGroupKept(b: Bank, b': Bank, g: Group, h: Group)
    requires HasGroup(b, h) && OnlyGroupChanged(b, b', g) && g.index != h.index
    ensures HasGroup(b', h) && View(b', h) == View(b, h)
  {
    SlotOwnership(h, ReadCountMutex, Slot(h, ReadCountMutex));
    SlotOwnership(h, ReadCount, Slot(h, ReadCount));
    SlotOwnership(h, WriteSem, Slot(h, WriteSem));
  }

  /** As written, a log request over one entry whose seek fails sends one packet, counts, then takes a reader lock it never releases. */
  lemma LogSeekSwitch(files: Files, rec: Record, peer: Peer, stale: LogEntry)
    requires |files.log| == 1
    ensures var sw := MessageSwitch(AsWritten, files, Message(LogAction, 0, rec), peer, NoFaults, map[0 := Io(false, true)], stale);
      |sw.sent| == 1 && sw.dataLocks == [] && sw.logLocks == Bracket(Shared) + [Lock(Shared)]
  {
    var logIo := map[0 := Io(false, true)];
    var sw := MessageSwitch(AsWritten, files, Message(LogAction, 0, rec), peer, NoFaults, logIo, stale);
    assert sw == LogSwitch(AsWritten, files, Healthy, logIo, stale);
    assert StreamLocks(AsWritten, files.log, 1, logIo) == [Lock(Shared)];
  }

  /** With a reader left counted in the log's group, the next count request's log entry waits for good. */
  lemma CountWaitsForLogReader(v: Version, files: Files, held: Bank, semid: int, peer: Peer, stale: LogEntry)
    requires HasServerGroups(held, semid)
    requires View(held, DataGroup(semid)) == Unlocked && View(held, LogGroup(semid)) == Triple(1, 1, 0)
    ensures Synchronise(held, semid, MessageSwitch(v, files, Message(CountAction, 0, ZeroRecord), peer, NoFaults, map[], stale)).None?
  {
    var g, lg := DataGroup(semid), LogGroup(semid);
    var count := MessageSwitch(v, files, Message(CountAction, 0, ZeroRecord), peer, NoFaults, map[], stale);
    assert count.dataLocks == Bracket(Shared);
    assert count.logLocks == Bracket(Exclusive);
    BracketRestores(held, g, Shared);
    assert ApplyAll(held, lg, count.logLocks) == None;
  }

  /** As written, a count request after a log request whose first seek failed never gets its reply out. */
  lemma LogSeekBlocksCount(files: Files, sems: Bank, semid: int, peer: Peer, rec: Record, stale: LogEntry)
    requires HasServerGroups(sems, semid)
    requires View(sems, DataGroup(semid)) == Unlocked && View(sems, LogGroup(semid)) == Unlocked
    requires |files.log| == 1
    ensures var logged := MessageSwitch(AsWritten, files, Message(LogAction, 0, rec), peer, NoFaults, map[0 := Io(false, true)], stale);
      var b := Synchronise(sems, semid, logged);
      && b.Some?
      && Synchronise(b.value, semid, MessageSwitch(AsWritten, logged.files, Message(CountAction, 0, ZeroRecord), peer, NoFaults, map[], stale)).None?
  {
    var logged := MessageSwitch(AsWritten, files, Message(LogAction, 0, rec), peer, NoFaults, map[0 := Io(false, true)], stale);
    var held := LogSeekLeavesReaderLock(files, sems, semid, peer, rec, stale);
    CountWaitsForLogReader(AsWritten, logged.files, held, semid, peer, stale);
  }

  /** With one reader lock left taken, another reader still gets in and out, leaving the group as it was. */
  lemma ReadStaysAvailable(b: Bank, g: Group)
    requires HasGroup(b, g) && View(b, g) == Triple(1, 1, 0)
    ensures forall rest :: ApplyAll(b, g, Bracket(Shared) + rest) == ApplyAll(b, g, rest)
  {
    BracketRestores(b, g, Shared);
    forall rest
      ensures ApplyAll(b, g, Bracket(Shared) + rest) == ApplyAll(b, g, rest)
    {
      var ops := Bracket(Shared) + rest;
      var b1 := Apply(b, g, Lock(Shared)).value;
      ReaderRoundTrip(b, g);
      assert ops[1..][1..] == rest;
    }
  }

  /**
   A client that connects to a server with an empty log and disconnects
   without a request leaves two entries, and a later log request streams
   them in order and then the terminator.
   */
  lemma EmptySessionLog(v: Version, sems: Bank, semid: int, peer: Peer, data: seq<Record>, stale: LogEntry)
    requires HasServerGroups(sems, semid) && View(sems, LogGroup(semid)) == Unlocked
    ensures var s := Session(v, Files(data, []), sems, semid, peer, [], stale);
      var connect, disconnect := LogEntry(peer, ConnectAction, 0), LogEntry(peer, DisconnectAction, 0);
      && !s.blocked
      && s.files.log == [connect, disconnect]
      && LogReply(s.files.log, Healthy, map[], stale) == [LogMessage(1, connect), LogMessage(1, disconnect), LogMessage(0, disconnect)]
  {
    EmptySessionWritesTwo(v, sems, semid, peer, data, stale);
    var log := [LogEntry(peer, ConnectAction, 0), LogEntry(peer, DisconnectAction, 0)];
    TwoEntryLogReply(log, stale);
    var msgs := LogReply(log, Healthy, map[], stale);
    assert msgs == [msgs[0], msgs[1], msgs[2]];
  }

  /** The session without requests writes its connect and disconnect entries and nothing else. */
  lemma EmptySessionWritesTwo(v: Version, sems: Bank, semid: int, peer: Peer, data: seq<Record>, stale: LogEntry)
    requires HasServerGroups(sems, semid) && View(sems, LogGroup(semid)) == Unlocked
    ensures var s := Session(v, Files(data, []), sems, semid, peer, [], stale);
      && !s.blocked
      && s.files.log == [LogEntry(peer, ConnectAction, 0), LogEntry(peer, DisconnectAction, 0)]
  {
    var connect := WriteLog(v, [], peer, ConnectAction, 0, Healthy);
    BalancedRestores(sems, LogGroup(semid), connect.locks);
    BalancedRestores(sems, LogGroup(semid), WriteLog(v, connect.file, peer, DisconnectAction, 0, Healthy).locks);
  }

  /** A healthy log request on a two-entry log streams both entries and ends by repeating the last one. */
  lemma TwoEntryLogReply(log: seq<LogEntry>, stale: LogEntry)
    requires |log| == 2
    ensures var msgs := LogReply(log, Healthy, map[], stale);
      |msgs| == 3 && msgs[0] == LogMessage(1, log[0]) && msgs[1] == LogMessage(1, log[1]) && msgs[2] == LogMessage(0, log[1])
  {
    var msgs := LogReply(log, Healthy, map[], stale);
    assert msgs[2].entry == FinalBuffer(log, 2, map[], stale);
  }
}

=== FILE: shared_memory.dfy ===
/**
 The process table in shared memory (class SharedMemory).

 The segment holds a connected-client counter followed by a fixed table of
 MaxClients cells, one per attached client process. Every access is a
 critical section of the table's SemaphoreSet group; results carry the lock
 calls made, as in the record store. Clock readings are the parameter `now`.
 */
module SharedMemory {
  import opened Common
  import opened SemaphoreSet

  /** Capacity of the table. */
  const MaxClients: nat := 50

  /** One row of the table (Process_Cell). */
  datatype Cell = Cell(occupied: bool, pid: int, numCommands: int, startTime: int, lastCmdTime: int)

  /** A cell whose bytes are all zero. */
  const Vacant := Cell(false, 0, 0, 0, 0)

  /** The segment: the connected-client counter, then the cell table. */
  datatype Segment = Segment(numClients: int, cells: seq<Cell>)

  /** Number of occupied cells. */
  function Occupied(cells: seq<Cell>): nat {
    if cells == [] then 0
    else Occupied(cells[..|cells| - 1]) + (if cells[|cells| - 1].occupied then 1 else 0)
  }

  /** The table has its fixed size and the counter equals the number of occupied cells. */
  predicate Wf(seg: Segment) {
    |seg.cells| == MaxClients && seg.numClients == Occupied(seg.cells)
  }

  /** Replacing one cell changes the occupied count by the change in that cell alone. */
  lemma {:induction false} OccupiedUpdate(cells: seq<Cell>, i: nat, c: Cell)
    requires i < |cells|
    ensures Occupied(cells[i := c]) + (if cells[i].occupied then 1 else 0)
            == Occupied(cells) + (if c.occupied then 1 else 0)
    decreases |cells|
  {
    var n := |cells| - 1;
    assert cells[i := c][..n] == if i == n then cells[..n] else cells[..n][i := c];
    if i < n {
      OccupiedUpdate(cells[..n], i, c);
    }
  }

  lemma {:induction false} OccupiedBounds(cells: seq<Cell>)
    ensures Occupied(cells) <= |cells|
    ensures Occupied(cells) == |cells| <==> forall j :: 0 <= j < |cells| ==> cells[j].occupied
    ensures Occupied(cells) == 0 <==> forall j :: 0 <= j < |cells| ==> !cells[j].occupied
    decreases |cells|
  {
    if cells != [] {
      var n := |cells| - 1;
      OccupiedBounds(cells[..n]);
      assert forall j :: 0 <= j < n ==> cells[..n][j] == cells[j];
    }
  }

  /** If cell i is occupied, it is one of the occupied cells. */
  lemma OccupiedPositive(cells: seq<Cell>, i: nat)
    requires i < |cells| && cells[i].occupied
    ensures Occupied(cells) >= 1
  {
    OccupiedBounds(cells);
  }

  // ---------------------------------------------------------------------------
  // Creation and attachment (the constructor)
  // ---------------------------------------------------------------------------

  /** A segment as its creator initialises it: counter 0 and every cell zeroed. */
  function FreshSegment(): (seg: Segment)
    ensures Wf(seg) && seg.numClients == 0
    ensures forall j :: 0 <= j < |seg.cells| ==> seg.cells[j] == Vacant
  {
    var seg := Segment(0, seq(MaxClients, _ => Vacant));
    OccupiedBounds(seg.cells);
    seg
  }

  /** Which of the constructor's shmget calls fails with an unexpected error, if any. */
  datatype ShmFault =
    | ShmOk
    | CreateError    // shmget(IPC_CREAT|IPC_EXCL) fails with an error other than EEXIST
    | AttachError    // shmget on the existing segment fails

  /** Result of the constructor: attached at a cell, or the process exits with a code. */
  datatype Attached =
    | Attached(segment: Segment, index: nat, locks: seq<LockOp>)
    | Exited(code: int, remaining: Option<Segment>, locks: seq<LockOp>)

  /**
   The lowest index at or after `from` whose cell is unoccupied, or -1 if
   there is none.
   */
  function FirstVacant(cells: seq<Cell>, from: nat): (i: int)
    requires from <= |cells|
    ensures i == -1 <==> forall j :: from <= j < |cells| ==> cells[j].occupied
    ensures i != -1 ==> from <= i < |cells| && !cells[i].occupied
    ensures i != -1 ==> forall j :: from <= j < i ==> cells[j].occupied
    decreases |cells| - from
  {
    if from == |cells| then -1
    else if !cells[from].occupied then from
    else FirstVacant(cells, from + 1)
  }

  datatype Acquired = Acquired(segment: Segment, index: int, locks: seq<LockOp>)

  /**
   acquireCell: under the writer lock, take the first unoccupied cell, fill
   it in for this process, and count one more client. With every cell
   occupied nothing changes, the lock is still released, and the index
   stays -1.
   */
  function AcquireCell(seg: Segment, pid: int, now: int): (r: Acquired)
    ensures r.locks == Bracket(Exclusive)
    ensures r.index == -1 <==> forall j :: 0 <= j < |seg.cells| ==> seg.cells[j].occupied
    ensures r.index == -1 ==> r.segment == seg
    ensures r.index != -1 ==> 0 <= r.index < |seg.cells| && !seg.cells[r.index].occupied
    ensures r.index != -1 ==> forall j :: 0 <= j < r.index ==> seg.cells[j].occupied
    ensures r.index != -1 ==> r.segment.numClients == seg.numClients + 1
    ensures r.index != -1 ==> |r.segment.cells| == |seg.cells|
    ensures r.index != -1 ==> r.segment.cells[r.index] == Cell(true, pid, 0, now, now)
    ensures r.index != -1 ==> forall j :: 0 <= j < |seg.cells| && j != r.index ==> r.segment.cells[j] == seg.cells[j]
  {
    var i := FirstVacant(seg.cells, 0);
    if i == -1 then Acquired(seg, -1, Bracket(Exclusive))
    else Acquired(Segment(seg.numClients + 1, seg.cells[i := Cell(true, pid, 0, now, now)]), i, Bracket(Exclusive))
  }

  /**
   The constructor: create the segment exclusively and initialise it under
   the writer lock, or attach to the one that exists; then acquire a cell.
   An unexpected shmget error exits with code 1, a full table with code 0.
   */
  function Attach(seg: Option<Segment>, pid: int, now: int, fault: ShmFault): (r: Attached)
    ensures seg.None? && fault == ShmOk ==>
              r == Attached(Segment(1, FreshSegment().cells[0 := Cell(true, pid, 0, now, now)]), 0, Bracket(Exclusive) + Bracket(Exclusive))
    ensures fault == CreateError ==> r == Exited(1, seg, [])
    ensures seg.Some? && fault == AttachError ==> r == Exited(1, seg, [])
    ensures seg.Some? && fault == ShmOk ==>
              (r.Exited? <==> forall j :: 0 <= j < |seg.value.cells| ==> seg.value.cells[j].occupied)
    ensures seg.Some? && fault == ShmOk && r.Exited? ==> r == Exited(0, seg, Bracket(Exclusive))
    ensures seg.Some? && fault == ShmOk && r.Attached? ==> r.locks == Bracket(Exclusive)
    ensures seg.Some? && fault == ShmOk && r.Attached? ==>
              && r.index < |seg.value.cells| && !seg.value.cells[r.index].occupied
              && (forall j :: 0 <= j < r.index ==> seg.value.cells[j].occupied)
              && r.segment == Segment(seg.value.numClients + 1, seg.value.cells[r.index := Cell(true, pid, 0, now, now)])
  {
    if fault == CreateError then Exited(1, seg, [])
    else if seg.Some? && fault == AttachError then Exited(1, seg, [])
    else
      var (base, initLocks) := if seg.None? then (FreshSegment(), Bracket(Exclusive)) else (seg.value, []);
      var a := AcquireCell(base, pid, now);
      if a.index == -1 then Exited(0, Some(base), initLocks + a.locks)
      else Attached(a.segment, a.index, initLocks + a.locks)
  }

  // ---------------------------------------------------------------------------
  // Commands, listing and detachment
  // ---------------------------------------------------------------------------

  datatype Logged = Logged(segment: Segment, locks: seq<LockOp>)

  /** logCommand: under the writer lock, count one more command in this process's cell and stamp its time. */
  function LogCommand(seg: Segment, index: nat, now: int): (r: Logged)
    requires index < |seg.cells|
    ensures r.segment.numClients == seg.numClients && |r.segment.cells| == |seg.cells|
    ensures r.segment.cells[index].numCommands == seg.cells[index].numCommands + 1
    ensures r.segment.cells[index].lastCmdTime == now
    ensures r.segment.cells[index] == seg.cells[index].(numCommands := r.segment.cells[index].numCommands, lastCmdTime := now)
    ensures forall j :: 0 <= j < |seg.cells| && j != index ==> r.segment.cells[j] == seg.cells[j]
    ensures r.locks == Bracket(Exclusive)
  {
    var c := seg.cells[index];
    Logged(seg.(cells := seg.cells[index := c.(numCommands := c.numCommands + 1, lastCmdTime := now)]), Bracket(Exclusive))
  }

  /**
   printConnectedClients, as the list it prints: under the reader lock, the
   occupied cells in index order.
   */
  method ConnectedClients(seg: Segment) returns (listed: seq<Cell>, indices: seq<nat>, locks: seq<LockOp>)
    ensures |listed| == |indices| == Occupied(seg.cells)
    ensures forall k :: 0 <= k < |indices| ==>
              indices[k] < |seg.cells| && seg.cells[indices[k]].occupied && listed[k] == seg.cells[indices[k]]
    ensures forall k, l :: 0 <= k < l < |indices| ==> indices[k] < indices[l]
    ensures forall j :: 0 <= j < |seg.cells| && seg.cells[j].occupied ==> j in indices
    ensures Wf(seg) ==> |listed| == seg.numClients
    ensures locks == Bracket(Shared)
  {
    listed, indices := [], [];
    var i := 0;
    while i < |seg.cells|
      invariant 0 <= i <= |seg.cells|
      invariant |listed| == |indices| == Occupied(seg.cells[..i])
      invariant forall k :: 0 <= k < |indices| ==>
                  indices[k] < i && seg.cells[indices[k]].occupied && listed[k] == seg.cells[indices[k]]
      invariant forall k, l :: 0 <= k < l < |indices| ==> indices[k] < indices[l]
      invariant forall j :: 0 <= j < i && seg.cells[j].occupied ==> j in indices
    {
      assert seg.cells[..i + 1][..i] == seg.cells[..i];
      if seg.cells[i].occupied {
        listed, indices := listed + [seg.cells[i]], indices + [i];
      }
      i := i + 1;
    }
    assert seg.cells[..i] == seg.cells;
    locks := Bracket(Shared);
  }

  /** releaseCell: zero the process's cell. */
  function ReleaseCell(seg: Segment, index: nat): (r: Segment)
    requires index < |seg.cells|
    ensures r.numClients == seg.numClients && |r.cells| == |seg.cells|
    ensures !r.cells[index].occupied && r.cells[index] == Vacant
    ensures forall j :: 0 <= j < |seg.cells| && j != index ==> r.cells[j] == seg.cells[j]
  {
    seg.(cells := seg.cells[index := Vacant])
  }

  datatype Detached = Detached(remaining: Option<Segment>, kernel: Kernel, locks: seq<LockOp>)

  /**
   The destructor: under the writer lock, release the cell and count one
   client fewer. If the counter is then 0 or less, remove the segment and
   destroy the whole semaphore set, without unlocking; otherwise unlock.
   */
  function Detach(seg: Segment, index: nat, k: Kernel, setId: nat): (r: Detached)
    requires index < |seg.cells|
    ensures r.remaining.None? <==> seg.numClients <= 1
    ensures seg.numClients <= 1 ==> r.kernel == DestroySemaphores(k, setId) && r.locks == [Lock(Exclusive)]
    ensures seg.numClients > 1 ==> r.kernel == k && r.locks == Bracket(Exclusive)
    ensures seg.numClients > 1 ==> r.remaining == Some(Segment(seg.numClients - 1, ReleaseCell(seg, index).cells))
  {
    var released := ReleaseCell(seg, index);
    var n := released.numClients - 1;
    if n <= 0 then Detached(None, DestroySemaphores(k, setId), [Lock(Exclusive)])
    else Detached(Some(released.(numClients := n)), k, Bracket(Exclusive))
  }

  // ---------------------------------------------------------------------------
  // Properties
  // ---------------------------------------------------------------------------

  /** A successful acquire keeps the counter equal to the number of occupied cells. */
  lemma AcquirePreservesWf(seg: Segment, pid: int, now: int)
    requires Wf(seg) && AcquireCell(seg, pid, now).index != -1
    ensures Wf(AcquireCell(seg, pid, now).segment)
  {
    var r := AcquireCell(seg, pid, now);
    assert r.segment.cells == seg.cells[r.index := Cell(true, pid, 0, now, now)];
    OccupiedUpdate(seg.cells, r.index, Cell(true, pid, 0, now, now));
  }

  /**
   Every way through the constructor keeps the counter equal to the number of
   occupied cells, whether it creates the segment or attaches to one that a
   well-formed run left behind, and the cell it reports is this process's.
   */
  lemma {:induction false} AttachPreservesWf(seg: Option<Segment>, pid: int, now: int, fault: ShmFault)
    requires seg.Some? ==> Wf(seg.value)
    ensures var r := Attach(seg, pid, now, fault);
      && (r.Attached? ==> Wf(r.segment) && r.index < MaxClients && r.segment.cells[r.index] == Cell(true, pid, 0, now, now))
      && (r.Exited? && r.remaining.Some? ==> Wf(r.remaining.value))
  {
    var r := Attach(seg, pid, now, fault);
    if r.Attached? {
      var base := if seg.None? then FreshSegment() else seg.value;
      AcquirePreservesWf(base, pid, now);
    }
  }

  /** Logging a command leaves the counter and the occupancy alone. */
  lemma LogCommandPreservesWf(seg: Segment, index: nat, now: int)
    requires Wf(seg) && index < |seg.cells|
    ensures Wf(LogCommand(seg, index, now).segment)
  {
    var r := LogCommand(seg, index, now);
    assert r.segment.cells == seg.cells[index := r.segment.cells[index]];
    OccupiedUpdate(seg.cells, index, r.segment.cells[index]);
  }

  /** A detach that leaves the segment in place keeps the counter equal to the number of occupied cells. */
  lemma DetachPreservesWf(seg: Segment, index: nat, k: Kernel, setId: nat)
    requires Wf(seg) && index < |seg.cells| && seg.cells[index].occupied
    requires Detach(seg, index, k, setId).remaining.Some?
    ensures Wf(Detach(seg, index, k, setId).remaining.value)
  {
    OccupiedUpdate(seg.cells, index, Vacant);
  }

  /** The detaching process tears everything down exactly when its cell was the last occupied one. */
  lemma TeardownExactlyWhenLast(seg: Segment, index: nat, k: Kernel, setId: nat)
    requires Wf(seg) && index < |seg.cells| && seg.cells[index].occupied
    ensures Detach(seg, index, k, setId).remaining.None?
            <==> forall j :: 0 <= j < |seg.cells| && j != index ==> !seg.cells[j].occupied
  {
    OccupiedUpdate(seg.cells, index, Vacant);
    var released := seg.cells[index := Vacant];
    OccupiedBounds(released);
    if forall j :: 0 <= j < |seg.cells| && j != index ==> !seg.cells[j].occupied {
      assert forall j :: 0 <= j < |released| ==> !released[j].occupied;
    } else {
      var j :| 0 <= j < |seg.cells| && j != index && seg.cells[j].occupied;
      assert released[j].occupied;
    }
  }

  /**
   On a full table acquire fails and changes nothing; once one client
   detaches, exactly one acquire succeeds, reusing that client's index, and
   the table is full again.
   */
  lemma FullTableReusesReleasedCell(seg: Segment, index: nat, k: Kernel, setId: nat, pid: int, now: int)
    requires Wf(seg) && index < |seg.cells|
    requires forall j :: 0 <= j < |seg.cells| ==> seg.cells[j].occupied
    ensures AcquireCell(seg, pid, now) == Acquired(seg, -1, Bracket(Exclusive))
    ensures var d := Detach(seg, index, k, setId);
      && d.remaining.Some?
      && var a := AcquireCell(d.remaining.value, pid, now);
      && a.index == index
      && Wf(a.segment)
      && AcquireCell(a.segment, pid, now).index == -1
  {
    OccupiedBounds(seg.cells);
    var d := Detach(seg, index, k, setId);
    DetachPreservesWf(seg, index, k, setId);
    var a := AcquireCell(d.remaining.value, pid, now);
    AcquirePreservesWf(d.remaining.value, pid, now);
    assert forall j :: 0 <= j < |a.segment.cells| ==> a.segment.cells[j].occupied;
  }

  /**
   Two clients on one machine: A attaches to no segment and takes cell 0, B
   takes cell 1; A's detach keeps the segment, B's removes it and the
   semaphore set.
   */
  lemma TwoClientLifecycle(pidA: int, pidB: int, t1: int, t2: int, k: Kernel, setId: nat)
    ensures var a := Attach(None, pidA, t1, ShmOk);
      && a.Attached? && a.index == 0 && a.segment.numClients == 1 && Wf(a.segment)
      && var b := Attach(Some(a.segment), pidB, t2, ShmOk);
      && b.Attached? && b.index == 1 && b.segment.numClients == 2 && Wf(b.segment)
      && var da := Detach(b.segment, a.index, k, setId);
      && da.remaining.Some? && da.remaining.value.numClients == 1 && da.kernel == k
      && var db := Detach(da.remaining.value, b.index, k, setId);
      && db.remaining.None? && setId !in db.kernel.sets
  {
    var empty := FreshSegment();
    var a := Attach(None, pidA, t1, ShmOk);
    AcquirePreservesWf(empty, pidA, t1);
    assert a.segment.cells[1] == Vacant;
    var b := Attach(Some(a.segment), pidB, t2, ShmOk);
    AcquirePreservesWf(a.segment, pidB, t2);
  }
}
